=== FILE: README.md ===
# YoutubeSummarizer backend, modelled in Dafny

YoutubeSummarizer is a small web service. It takes a YouTube URL, pulls the
video id out of it and fetches the video's transcript. It then asks a Gemini
model for a short JSON summary and returns the parsed summary, or
`{"error": ...}` with status 500. The repository holds two revisions of the
backend: `index.py` and `api/index.py`. They differ in how they read URLs,
which transcript they take, and their error messages. This project models
both revisions side by side.

Modules, in dependency order:

- `Results` (`results.dfy`): `Option` and `Result`. An exception that
  escapes is `Err(message)`, where the message is what `str(e)` gives.
- `PyStr` (`pystr.dfy`): the Python `str` operations the service is built
  from, with CPython's semantics:
  - `p in s`, `startswith`
  - `split(sep)` and indexing its result with `[0]`, `[1]` and `[-1]`
  - `sep.join`, `replace(p, "")`
  - `strip()` over the characters for which `str.isspace()` holds.

  Each operation is defined by a plain scan (leftmost for a separator, forward
  and backward for whitespace) that gives the same result as CPython, whose
  own search routine differs. Its contract, or a
  lemma about it, describes the result in terms of occurrences of the
  separator, without reference to that scan. `split` is characterised
  completely: `SplitUnique` shows that its contract, together with
  `JoinSplit`, leaves only one possible list of pieces. `join` and `replace` have contracts of their own,
  and round trips connect the operations: join after split, split after
  join, and replace as split-then-join.
- `VideoId` (`video_id.dfy`): both `extract_youtube_id` functions. An id is
  described as a piece of the URL cut before the first place where one of a
  few separators begins (`CutBefore`), and such a cut is unique. Further
  lemmas cover:
  - the id read back from a URL built around it;
  - the separators an id can still hold;
  - the inputs on which the two revisions disagree.
- `ReplyCleaning` (`reply.dfy`): the three lines both revisions use to tidy
  Gemini's reply before `json.loads`.
- `Transcripts` (`transcripts.dfy`):
  - the manual / generated / translated fallback of `get_best_transcript`, and its newline join;
  - `get_transcript` of `api/index.py`, with its space join and error rewrapping.
- `Summarizer` (`summarizer.dfy`): the key guard, the prompt, cleaning, parsing and the two parse-error messages.
- `Endpoint` (`endpoint.dfy`): the `/summarize` pipelines, the 200/500 envelope, and `/` of `api/index.py`.

What the model takes as parameters instead of calling:

- the transcript library: a listing, the outcome of fetching or translating each transcript, or a function from video id to entry texts;
- the Gemini call: a function from request to reply text;
- `json.loads`: a function from text to a parsed value of any type `V`;
- the API key read from the environment: an `Option<string>`.

The code does not check that the summary has `topic_name` and `topic_summary`
fields. It returns whatever `json.loads` produced, so the model keeps the
parsed value abstract and the endpoint returns it unchanged.

## Model

| member | source | states |
|---|---|---|
| PyStr.Find | index.py:17 | The index found is an occurrence of the pattern with no occurrence before it; no index means no occurrence anywhere. |
| PyStr.Contains | index.py:17 | Python's `p in s`: some index holds an occurrence of `p`. |
| PyStr.StartsWith | index.py:81 | Python's `s.startswith(p)`: `p` occurs at index 0. |
| PyStr.FindContains | index.py:17 | The leftmost search finds an index exactly when `p in s` holds. |
| PyStr.FindIs | index.py:18 | An occurrence with none before it is the one the leftmost search reports. |
| PyStr.ContainsChar | index.py:18-20 | Helper for the one-character splits on `/`, `&` and `?`: a one-character pattern occurs in a text exactly when that character is one of its characters. |
| PyStr.Split | index.py:18 | `s.split(sep)` has at least one piece, no piece holds the separator, and each cut but the last falls at the leftmost occurrence after the previous cut. |
| PyStr.FirstCut | index.py:18 | The first piece followed by the separator has its leftmost occurrence right after the piece. |
| PyStr.SplitUnique | index.py:18 | Any list of pieces that joins back to the text, holds no separator, and cuts at leftmost occurrences is the split. |
| PyStr.Join | index.py:49 | `sep.join(parts)` is empty for no pieces, opens with the first piece, and has the separator right after it when there are two or more. |
| PyStr.JoinLength | api/index.py:27 | The join is as long as the pieces plus one separator between each two. |
| PyStr.JoinSplit | index.py:18 | Joining the pieces of a split with the same separator gives the text back. |
| PyStr.SplitJoin | index.py:49 | Pieces free of a one-character separator are given back by splitting their join. |
| PyStr.SplitHead | index.py:18 | `split(sep)[0]` is the prefix up to the leftmost occurrence, or the whole text; it holds no separator. |
| PyStr.SplitSecond | api/index.py:21 | `split(sep)[1]` exists exactly when the separator occurs; it is the head of the text after the first occurrence, else IndexError "list index out of range". |
| PyStr.SplitTail | index.py:20 | `split(sep)[-1]` is a separator-free suffix; it is the whole text exactly when the separator is absent, and otherwise it follows an occurrence. |
| PyStr.LastPiece | index.py:20 | The last piece of a split is a suffix, the whole text exactly when no separator occurs. |
| PyStr.LastPieceFollowsSeparator | index.py:20 | When the separator occurs, the last piece starts right after an occurrence. |
| PyStr.SplitTailAfter | index.py:20 | After the last `/`, `split("/")[-1]` is exactly the text that follows it. |
| PyStr.RemoveAll | index.py:82 | `s.replace(p, "")` is `s` itself when `p` does not occur, and at least one occurrence shorter when it does. |
| PyStr.RemoveAllIsSplitJoin | index.py:82 | `s.replace(p, "")` equals `"".join(s.split(p))`. |
| PyStr.RemoveAllUniform | index.py:82 | Deleting a pattern made of one repeated character, such as the three-backtick fence, leaves no occurrence of it. |
| PyStr.StripChars | index.py:80 | The stripped text neither starts nor ends with a stripped character; it is a slice with nothing but such characters around it. |
| PyStr.Strip | index.py:80 | `strip()` leaves no leading or trailing whitespace and keeps the inner slice of the text. |
| PyStr.StripCharsUnique | index.py:80 | The slice the strip keeps is the only one with those properties. |
| PyStr.StripIdempotent | index.py:82 | Stripping twice is stripping once. |
| PyStr.StripPadded | index.py:82 | Whitespace added around a text does not change what it strips to. |
| PyStr.StripContains | index.py:82 | Whatever occurs in the stripped text occurs in the original. |
| VideoId.CutBeforeUnique | index.py:18 | A text has exactly one cut before a given set of separators. |
| VideoId.HeadCut | index.py:18 | `s.split(sep)[0]` is `s` cut before `sep`. |
| VideoId.HeadCutChar | index.py:18 | Splitting a cut again on one character and keeping the head cuts the original before that character as well. |
| VideoId.WatchId | index.py:18 | The watch-page id is the text after the first `v=`, cut before the next `v=`, `&` or `?`. |
| VideoId.ShortId | index.py:20 | The short-link id is the text after the last `/`, cut before `?` or `&`. |
| VideoId.ExtractVideoId | index.py:16-22 | Succeeds exactly when the watch or the short marker occurs. The watch marker takes precedence. Each branch's result is its cut. Anything else raises "❌ Invalid YouTube URL". |
| VideoId.ExtractedIdParts | index.py:16-22 | The extracted id occurs in the URL and holds no `&` or `?`; from a short link it also holds no `/`. |
| VideoId.WatchLinkRoundTrip | index.py:17-18 | A watch link built from an id and an optional `&` or `?` parameter gives that id back. |
| VideoId.ShortLinkRoundTrip | index.py:19-20 | A short link built from an id and an optional query gives that id back when it is not also a watch link. |
| VideoId.EmptyIdAccepted | index.py:17-18 | `watch?v=&...` yields the empty id: the result is never checked for emptiness. |
| VideoId.ApiShortId | api/index.py:19 | The short-link id is the text after the last `/`, cut before `?` only. |
| VideoId.ApiWatchId | api/index.py:21 | The watch-page id is the text after the first `v=`, cut before the next `v=` or `&` only. |
| VideoId.ExtractVideoIdApi | api/index.py:17-22 | A URL mentioning `youtu.be` is read as a short link first. Otherwise one mentioning `youtube.com` is a watch link, and without `v=` it raises IndexError. Anything else raises "Invalid YouTube URL". |
| VideoId.ApiExtractedIdParts | api/index.py:17-22 | The extracted id occurs in the URL. From a short link it holds no `/` or `?`; from a watch link it holds no `&`. |
| VideoId.ApiShortLinkRoundTrip | api/index.py:18-19 | A short link built from an id and an optional `?` query gives that id back. |
| VideoId.ApiShortLinkKeepsRest | api/index.py:19 | A short link keeps `&` parameters in the id. |
| VideoId.ApiWatchLinkRoundTrip | api/index.py:20-21 | A watch link built from an id and an optional `&` parameter gives that id back when `youtu.be` is not mentioned. |
| VideoId.ApiWatchLinkKeepsQuery | api/index.py:20-21 | A watch link keeps a `?` query that follows the id. |
| VideoId.RevisionsDifferOnShortLink | api/index.py:18-19 | On a short link with an `&` parameter, `index.py` returns the id and `api/index.py` returns the id with the parameter. |
| VideoId.ApiLastSegment | api/index.py:18-19 | A URL mentioning `youtu.be` gives its last path segment, cut before `?`. |
| VideoId.SharedWatchLinkApi | api/index.py:18-19 | A watch link that mentions `youtu.be` after the id yields `watch` in `api/index.py`. |
| VideoId.SharedWatchLink | index.py:17-18 | On a watch link that mentions `youtu.be` after the id, `index.py` finds the id while `api/index.py` answers `watch`. |
| ReplyCleaning.CleanReply | index.py:80-82 | The cleaned reply is trimmed. An unfenced reply is only stripped; a fenced one holds no fence at all. |
| ReplyCleaning.JsonFenceHasFence | index.py:81 | A text opening with a JSON fence contains a plain fence. |
| ReplyCleaning.CleanIdempotent | api/index.py:49-53 | Cleaning a cleaned reply changes nothing. |
| ReplyCleaning.UnfencedClean | index.py:80-81 | A reply without fences is only stripped. |
| ReplyCleaning.RemoveOpeningFence | index.py:82 | Deleting JSON fences from a fenced fence-free text removes only the opening one. |
| ReplyCleaning.RemoveClosingFence | index.py:82 | Deleting fences then removes only the closing one. |
| ReplyCleaning.CleanFencedEqualsBare | index.py:80-82 | A fence-free text wrapped in a JSON code block on its own lines cleans to the same text as the bare one. |
| Transcripts.FirstTranslatableFrom | index.py:40-43 | The loop stops at the first transcript from a position on whose translation languages include `en`; none means none qualifies. |
| Transcripts.FirstTranslatable | index.py:40-43 | The first transcript in list order translatable to `en`, or none exactly when none is. |
| Transcripts.ChooseTranscript | index.py:28-46 | Manual English wins, then generated English. Then comes the translation of the first translatable transcript, and "❌ No usable transcript found." when there is no candidate. |
| Transcripts.NoUsableExactly | index.py:45-46 | The "no usable transcript" error arises exactly when all three steps yield nothing. |
| Transcripts.OnlyFirstTranslationAsked | index.py:39-43 | Only the first translatable transcript is asked for a translation; what the others would give does not matter. |
| Transcripts.GetBestTranscript | index.py:24-49 | Listing, translation and fetch errors propagate unchanged. On success the text is the entry texts joined by newlines in order, and splitting it on newlines recovers them when no entry holds a newline. |
| Transcripts.JoinLines | index.py:49 | Joining entry texts with newlines lays them out so that splitting on newlines recovers them when there is at least one entry and no entry holds a newline, and gives the empty text for no entries. |
| Transcripts.GetTranscriptApi | api/index.py:24-29 | Succeeds exactly when retrieval does, with the space-joined texts. A failure message is "Could not retrieve transcript: " followed by the original message. |
| Transcripts.SpaceJoinedWords | api/index.py:27 | One-word entries are recovered by splitting the joined text on spaces. |
| Summarizer.Prompt | index.py:58-67 | The prompt is the fixed head, the transcript and the fixed tail; the transcript can be cut back out of it. |
| Summarizer.PromptHoldsTranscript | api/index.py:37-46 | The transcript always occurs in the prompt. |
| Summarizer.PromptInjective | index.py:58-67 | Different transcripts give different prompts. |
| Summarizer.RootRequest | index.py:56-67 | `index.py` asks `gemini-2.5-pro` with a prompt that starts with its head and holds the transcript. |
| Summarizer.ApiRequest | api/index.py:35-46 | `api/index.py` asks `gemini-1.5-flash` with a prompt that starts with its head and holds the transcript. |
| Summarizer.ParseError | index.py:86-87 | The parse-failure message is "❌ Failed to parse Gemini output: " followed by the cleaned reply, which can be read back. |
| Summarizer.ApiParseError | api/index.py:57-58 | The parse-failure message holds the decoder's message, then "\nRaw response: ", then the cleaned reply, each recoverable. |
| Summarizer.KeySet | index.py:52 | The key counts as set when it is present and non-empty, as `not GEMINI_API_KEY` is false exactly then. |
| Summarizer.Summarize | index.py:51-87 | Without a key it raises "❌ Gemini API key not set.". A generation error propagates. Otherwise the parsed cleaned reply is returned, or the parse-failure message. |
| Summarizer.SummarizeApi | api/index.py:31-58 | The same steps with "Gemini API key not set in environment." and the two-part parse-failure message. |
| Summarizer.NoKeyNoCall | index.py:52-53 | Without a key neither the model nor the parser matters: both revisions fail before generation. |
| Summarizer.SameCleanSameSummary | index.py:80-85 | Only the cleaned reply reaches `json.loads`: replies that agree after cleaning give the same outcome. |
| Summarizer.SameCleanSameSummaryApi | api/index.py:49-56 | The same holds for `api/index.py`. |
| Summarizer.FencedReplySameSummary | api/index.py:52-56 | A JSON code-block reply and the bare JSON text give the same summary in both revisions. |
| Summarizer.ParseFailureShowsCleanReply | index.py:84-87 | A parse-failure message shows the cleaned reply: trimmed, unchanged by cleaning again, and fence-free when the reply was fenced. |
| Endpoint.Envelope | index.py:91-97 | A value comes back with 200 and the value itself; an exception comes back with 500 and `{"error": message}`. |
| Endpoint.Pipeline | index.py:91-95 | The first step that fails decides the outcome with its own error: an invalid URL, then transcript retrieval, then summarisation. Otherwise the outcome is the summarisation's. |
| Endpoint.PipelineApi | api/index.py:70-74 | The first step that fails decides the outcome with its own error: extraction, then retrieval, then summarisation. Otherwise the outcome is the summarisation's. |
| Endpoint.GetSummary | index.py:89-97 | Status 200 with the summary exactly when the pipeline succeeds, else 500 with the first failure's message. |
| Endpoint.GetSummaryApi | api/index.py:68-76 | Status 200 with the summary exactly when the pipeline succeeds, else 500 with the first failure's message. |
| Endpoint.ReadRoot | api/index.py:63-65 | `GET /` answers 200 with status "API is running". |
| Endpoint.InvalidUrlRefused | index.py:92 | A URL with neither marker is refused with "❌ Invalid YouTube URL", whatever the services would do. |
| Endpoint.ApiWatchLinkWithoutId | api/index.py:71 | A `youtube.com` URL without `v=` reaches the client as 500 "list index out of range". |
| Endpoint.MissingKeyReportedLast | index.py:92-94 | Without a key the transcript is still retrieved. Its error is reported if it fails, else the missing key is. |
| Endpoint.NoCandidateTranscript | index.py:93 | A listing without any candidate gives 500 "❌ No usable transcript found.". |
| Endpoint.SuccessIsParsedReply | index.py:94-95 | On success `index.py` returns exactly what the parser made of the cleaned reply to its prompt. |
| Endpoint.SuccessIsParsedReplyApi | api/index.py:73-74 | On success `api/index.py` returns exactly what the parser made of the cleaned reply to its prompt. |
| Endpoint.FirstFailureReported | index.py:91-97 | Once the id is extracted, a failed retrieval, model call or parse, with the key set, is answered with 500 and that failure's message. |
| Endpoint.FirstFailureReportedApi | api/index.py:70-76 | Once the id is extracted, a failed retrieval, model call or parse, with the key set, is answered with 500 and that failure's message. |
| Endpoint.WatchLinkSummary | index.py:89-97 | A watch link to a video with a manual English transcript, a set key, and a JSON code-block reply whose text parses gives 200 and the parsed value. |
| Endpoint.ApiTranscriptFailure | api/index.py:72 | A failed retrieval is answered with 500 and the rewrapped message, before the key check. |

## Left out

- The Streamlit front end (`frontend/app_ui.py`): it renders the JSON and makes an HTTP call, and holds no logic of the backend.
- The transcript library (`YouTubeTranscriptApi`): its listing, lookups, translation and fetching are network calls into code outside this model. Their outcomes are inputs. Exceptions from `list_transcripts`, `translate` and `fetch` are not guarded in `index.py` and appear as those inputs' errors.
- The Gemini client and its generation settings: temperature, thinking budget and MIME type are passed to a hosted model and cannot be modelled. The model name and prompt are kept in the request.
- The missing `types` import at `index.py:69`: as written, that line raises NameError before any request is made. The model lets the generation input fail with any message and does not reproduce that particular one. So with the key set, `index.py` as written never gets a reply. The success branch of `Summarizer.Summarize`, and `Summarizer.RootRequest`, `Endpoint.SuccessIsParsedReply` and `Endpoint.WatchLinkSummary`, describe `index.py` with that import added.
- `json.loads`: not a JSON grammar. It is an input that returns a parsed value or the decoder's message. Only JSONDecodeError is modelled as a parse failure, since that is the only exception the code catches at that point.
- `response.text` being `None`: the model's reply is always a string.
- `d['text']` raising KeyError in `get_transcript`: it is inside the `try`, so it is one more way for the retrieval input to fail.
- FastAPI, Mangum, `load_dotenv`, `os.getenv` and `genai.configure`: start-up and environment I/O. The key is an input; a value of `None` or `""` counts as missing, as `not KEY` does.
- PyStr.Split, PyStr.SplitHead, PyStr.SplitSecond, PyStr.SplitTail: require a non-empty separator. Python raises ValueError for an empty one, and the service never passes one.
- PyStr.RemoveAll: requires a non-empty pattern. An empty pattern matches at every position, so the leftmost scan would never advance past it; the service never uses one.
- Real YouTube id syntax: ids are taken as any string of letters, digits, `-` and `_`, without the fixed length of 11.

=== FILE: endpoint.dfy ===
/** The HTTP side of the service: the `/summarize` endpoint of each revision,
    which runs id extraction, transcript retrieval and summarisation in turn
    and turns the first exception into a 500 response, and the `/` endpoint
    of `api/index.py`.

    The web framework is not part of this model: a response is its status
    code and its JSON body, and the outside services an endpoint relies on
    come in as a bundle of functions.
 */
module Endpoint {
  import opened Results
  import opened PyStr
  import opened VideoId
  import opened Transcripts
  import opened ReplyCleaning
  import opened Summarizer

  /** The status FastAPI gives a handler's plain return value. */
  const StatusOk := 200
  /** The status of the error response. */
  const StatusServerError := 500
  /** The status reported by `/`. */
  const Running := "API is running"

  /** A JSON response body: the parsed summary as Gemini gave it,
      `{"error": message}`, or `{"status": message}`. */
  datatype Body<V> = Summary(summary: V) | ErrorBody(error: string) | StatusBody(status: string)

  /** An HTTP response: status code and JSON body. */
  datatype Response<V> = Response(code: int, body: Body<V>)

  /** What `index.py` relies on: the API key read at start-up, the
      transcript listing, the Gemini model and `json.loads`. */
  datatype RootServices<V> = RootServices(
    apiKey: Option<string>,
    listTranscripts: string -> Result<TranscriptList>,
    generate: Request -> Result<string>,
    parse: string -> Result<V>)

  /** What `api/index.py` relies on: the API key, the default transcript of a
      video, the Gemini model and `json.loads`. */
  datatype ApiServices<V> = ApiServices(
    apiKey: Option<string>,
    getTranscript: string -> Result<seq<string>>,
    generate: Request -> Result<string>,
    parse: string -> Result<V>)

  /** The `try`/`except Exception` around each `/summarize` handler: a value
      is returned with status 200, an exception becomes status 500 with its
      message under `"error"`. */
  function Envelope<V>(outcome: Result<V>): (resp: Response<V>)
    ensures resp.code == StatusOk <==> outcome.Ok?
    ensures resp.code == StatusOk || resp.code == StatusServerError
    ensures resp.body.Summary? <==> resp.code == StatusOk
    ensures resp.body.Summary? ==> resp.body.summary == outcome.value
    ensures resp.body.ErrorBody? ==> resp.body.error == outcome.error
  {
    match outcome
    case Ok(v) => Response(StatusOk, Summary(v))
    case Err(e) => Response(StatusServerError, ErrorBody(e))
  }

  /** The three steps of `/summarize` in `index.py`, stopping at the first
      exception. */
  function Pipeline<V>(url: string, s: RootServices<V>): (r: Result<V>)
    ensures ExtractVideoId(url).Err? ==> r == Err(InvalidUrl)
    ensures ExtractVideoId(url).Ok? ==>
              var text := GetBestTranscript(ExtractVideoId(url).value, s.listTranscripts);
              && (text.Err? ==> r == Err(text.error))
              && (text.Ok? ==> r == Summarize(s.apiKey, text.value, s.generate, s.parse))
    ensures r.Ok? ==> && ExtractVideoId(url).Ok?
                      && GetBestTranscript(ExtractVideoId(url).value, s.listTranscripts).Ok?
                      && KeySet(s.apiKey)
  {
    var id :- ExtractVideoId(url);
    var text :- GetBestTranscript(id, s.listTranscripts);
    Summarize(s.apiKey, text, s.generate, s.parse)
  }

  /** The three steps of `/summarize` in `api/index.py`, stopping at the
      first exception. */
  function PipelineApi<V>(url: string, s: ApiServices<V>): (r: Result<V>)
    ensures ExtractVideoIdApi(url).Err? ==> r == Err(ExtractVideoIdApi(url).error)
    ensures ExtractVideoIdApi(url).Ok? ==>
              var text := GetTranscriptApi(ExtractVideoIdApi(url).value, s.getTranscript);
              && (text.Err? ==> r == Err(text.error))
              && (text.Ok? ==> r == SummarizeApi(s.apiKey, text.value, s.generate, s.parse))
    ensures r.Ok? ==> && ExtractVideoIdApi(url).Ok?
                      && GetTranscriptApi(ExtractVideoIdApi(url).value, s.getTranscript).Ok?
                      && KeySet(s.apiKey)
  {
    var id :- ExtractVideoIdApi(url);
    var text :- GetTranscriptApi(id, s.getTranscript);
    SummarizeApi(s.apiKey, text, s.generate, s.parse)
  }

  /** `get_summary` of `index.py`: `GET /summarize?url=...`. */
  function GetSummary<V>(url: string, s: RootServices<V>): (resp: Response<V>)
    ensures resp.body.Summary? <==> Pipeline(url, s).Ok?
    ensures resp.code == (if resp.body.Summary? then StatusOk else StatusServerError)
    ensures Pipeline(url, s).Ok? ==> resp.body.summary == Pipeline(url, s).value
    ensures Pipeline(url, s).Err? ==> resp.body == ErrorBody(Pipeline(url, s).error)
  {
    Envelope(Pipeline(url, s))
  }

  /** `get_summary_endpoint` of `api/index.py`: `GET /summarize?url=...`. */
  function GetSummaryApi<V>(url: string, s: ApiServices<V>): (resp: Response<V>)
    ensures resp.body.Summary? <==> PipelineApi(url, s).Ok?
    ensures resp.code == (if resp.body.Summary? then StatusOk else StatusServerError)
    ensures PipelineApi(url, s).Ok? ==> resp.body.summary == PipelineApi(url, s).value
    ensures PipelineApi(url, s).Err? ==> resp.body == ErrorBody(PipelineApi(url, s).error)
  {
    Envelope(PipelineApi(url, s))
  }

  /** Each step of the `/summarize` pipeline of `index.py` that raises
      decides the answer: 500 with that step's message, whatever the later
      steps would have done. With the key set, a listing that fails, a model
      call that fails or a reply that does not parse is reported as such. */
  lemma FirstFailureReported<V>(url: string, s: RootServices<V>)
    requires ExtractVideoId(url).Ok?
    ensures var text := GetBestTranscript(ExtractVideoId(url).value, s.listTranscripts);
            var resp := GetSummary(url, s);
            && (text.Err? ==> resp == Response(StatusServerError, ErrorBody(text.error)))
            && (text.Ok? && KeySet(s.apiKey) && s.generate(RootRequest(text.value)).Err? ==>
                  resp == Response(StatusServerError, ErrorBody(s.generate(RootRequest(text.value)).error)))
            && (text.Ok? && KeySet(s.apiKey) && s.generate(RootRequest(text.value)).Ok?
                && s.parse(CleanReply(s.generate(RootRequest(text.value)).value)).Err? ==>
                  resp == Response(StatusServerError,
                                   ErrorBody(ParseError(CleanReply(s.generate(RootRequest(text.value)).value)))))
  {
  }

  /** The same for `api/index.py`: a failed model call or a reply that does
      not parse is reported with its own message. */
  lemma FirstFailureReportedApi<V>(url: string, s: ApiServices<V>)
    requires ExtractVideoIdApi(url).Ok?
    ensures var text := GetTranscriptApi(ExtractVideoIdApi(url).value, s.getTranscript);
            var resp := GetSummaryApi(url, s);
            && (text.Err? ==> resp == Response(StatusServerError, ErrorBody(text.error)))
            && (text.Ok? && KeySet(s.apiKey) && s.generate(ApiRequest(text.value)).Err? ==>
                  resp == Response(StatusServerError, ErrorBody(s.generate(ApiRequest(text.value)).error)))
            && (text.Ok? && KeySet(s.apiKey) && s.generate(ApiRequest(text.value)).Ok?
                && s.parse(CleanReply(s.generate(ApiRequest(text.value)).value)).Err? ==>
                  var raw := CleanReply(s.generate(ApiRequest(text.value)).value);
                  resp == Response(StatusServerError, ErrorBody(ApiParseError(s.parse(raw).error, raw))))
  {
  }

  /** The whole `index.py` pipeline on a watch link whose video has a manual
      English transcript: when the model wraps a JSON text in a code block
      and that text, stripped, parses, the answer is 200 with the parsed
      value. */
  lemma WatchLinkSummary<V>(pre: string, id: string, tail: string, texts: seq<string>,
                            x: string, v: V, s: RootServices<V>)
    requires '=' !in pre
    requires IdShape(id)
    requires |tail| == 0 || tail[0] == '&' || tail[0] == '?'
    requires s.listTranscripts(id).Ok?
    requires s.listTranscripts(id).value.manualEnglish == Some(Transcript(Ok(texts)))
    requires KeySet(s.apiKey)
    requires !Contains(x, Fence)
    requires forall q :: s.generate(q) == Ok(JsonFence + "\n" + x + "\n" + Fence)
    requires s.parse(Strip(x)) == Ok(v)
    ensures GetSummary(pre + WatchMarker + id + tail, s) == Response(StatusOk, Summary(v))
  {
    WatchLinkRoundTrip(pre, id, tail);
    CleanFencedEqualsBare(x);
    UnfencedClean(x);
  }

  /** `read_root` of `api/index.py`: `GET /` reports that the service runs. */
  function ReadRoot<V>(): (resp: Response<V>)
    ensures resp.code == StatusOk && resp.body.StatusBody?
    ensures resp.body.status == Running
  {
    Response(StatusOk, StatusBody(Running))
  }

  /** A URL that is not a YouTube link is refused before any service is used:
      the response is the same whatever the services would do. */
  lemma InvalidUrlRefused<V>(url: string, s1: RootServices<V>, s2: RootServices<V>)
    requires !Contains(url, WatchMarker) && !Contains(url, ShortMarker)
    ensures GetSummary(url, s1) == GetSummary(url, s2) == Response(StatusServerError, ErrorBody(InvalidUrl))
  {
  }

  /** In `api/index.py` a `youtube.com` URL without a `v=` parameter is
      answered with the IndexError of the failed split, before any service
      is used. */
  lemma ApiWatchLinkWithoutId<V>(url: string, s: ApiServices<V>)
    requires !Contains(url, ApiShortMarker) && Contains(url, ApiWatchMarker)
    requires !Contains(url, IdParam)
    ensures GetSummaryApi(url, s) == Response(StatusServerError, ErrorBody(IndexOutOfRange))
  {
  }

  /** The key is checked only after the transcript is retrieved: without a
      key `index.py` still lists and fetches the transcript, and reports the
      missing key only when that succeeded. */
  lemma MissingKeyReportedLast<V>(url: string, s: RootServices<V>)
    requires !KeySet(s.apiKey)
    ensures var resp := GetSummary(url, s);
            && resp.code == StatusServerError
            && (ExtractVideoId(url).Ok? ==>
                  var text := GetBestTranscript(ExtractVideoId(url).value, s.listTranscripts);
                  && (text.Ok? ==> resp.body == ErrorBody(MissingKey))
                  && (text.Err? ==> resp.body == ErrorBody(text.error)))
  {
  }

  /** Without any candidate transcript, a valid link is answered with the
      "no usable transcript" error of `index.py`. */
  lemma NoCandidateTranscript<V>(url: string, s: RootServices<V>)
    requires ExtractVideoId(url).Ok?
    requires s.listTranscripts(ExtractVideoId(url).value).Ok?
    requires !HasCandidate(s.listTranscripts(ExtractVideoId(url).value).value)
    ensures GetSummary(url, s) == Response(StatusServerError, ErrorBody(NoUsableTranscript))
  {
  }

  /** On success `index.py` answers with exactly what `json.loads` made of the
      cleaned reply to the prompt built from the chosen transcript. */
  lemma SuccessIsParsedReply<V>(url: string, s: RootServices<V>)
    requires GetSummary(url, s).code == StatusOk
    ensures var text := GetBestTranscript(ExtractVideoId(url).value, s.listTranscripts).value;
            var reply := s.generate(RootRequest(text));
            && reply.Ok?
            && s.parse(CleanReply(reply.value)) == Ok(GetSummary(url, s).body.summary)
  {
  }

  /** On success `api/index.py` answers with exactly what `json.loads` made
      of the cleaned reply to the prompt built from the transcript. */
  lemma SuccessIsParsedReplyApi<V>(url: string, s: ApiServices<V>)
    requires GetSummaryApi(url, s).code == StatusOk
    ensures var text := GetTranscriptApi(ExtractVideoIdApi(url).value, s.getTranscript).value;
            var reply := s.generate(ApiRequest(text));
            && reply.Ok?
            && s.parse(CleanReply(reply.value)) == Ok(GetSummaryApi(url, s).body.summary)
  {
  }

  /** When the transcript cannot be retrieved, `api/index.py` answers with the
      rewrapped message and never reaches the key check or the model. */
  lemma ApiTranscriptFailure<V>(url: string, s: ApiServices<V>)
    requires ExtractVideoIdApi(url).Ok?
    requires s.getTranscript(ExtractVideoIdApi(url).value).Err?
    ensures GetSummaryApi(url, s)
         == Response(StatusServerError,
                     ErrorBody(RetrievalFailed + s.getTranscript(ExtractVideoIdApi(url).value).error))
  {
    var e := s.getTranscript(ExtractVideoIdApi(url).value).error;
    var m := GetTranscriptApi(ExtractVideoIdApi(url).value, s.getTranscript).error;
    assert m == m[..|RetrievalFailed|] + m[|RetrievalFailed|..];
  }
}

=== FILE: pystr.dfy ===
/** The handful of Python `str` operations the service is built from, with
    CPython's semantics: substring test (`p in s`), `startswith`, `split(sep)`
    and indexing its result with `[0]`, `[1]` and `[-1]`, `sep.join(parts)`,
    `replace(p, "")` and `strip()` with no argument.

    Every operation is defined by a scan that gives the same result as
    CPython (a leftmost scan for the separator, a forward and a backward scan
    for whitespace), though CPython's own search routine differs. Its
    contract, or a lemma about it, says what the result is in terms of
    occurrences of the separator, independently of that scan.
 */
module PyStr {
  import opened Results

  /** What `str(e)` gives for the IndexError of a list index past the end. */
  const IndexOutOfRange := "list index out of range"

  /** `p` occurs in `s` starting at index `i`. */
  predicate OccursAt(s: string, p: string, i: int)
  {
    0 <= i && i + |p| <= |s| && s[i..i + |p|] == p
  }

  /** Python's `p in s`. */
  predicate Contains(s: string, p: string)
  {
    exists i | 0 <= i <= |s| - |p| :: OccursAt(s, p, i)
  }

  /** Python's `s.startswith(p)`. */
  predicate StartsWith(s: string, p: string)
  {
    OccursAt(s, p, 0)
  }

  lemma SliceOfSlice(s: string, a: nat, b: nat, i: nat, e: nat)
    requires a <= b <= |s| && i <= e <= b - a
    ensures s[a..b][i..e] == s[a + i..a + e]
  {
    var l := s[a..b][i..e];
    var r := s[a + i..a + e];
    forall k | 0 <= k < |l|
      ensures l[k] == r[k]
    {
      assert l[k] == s[a..b][i + k];
      assert r[k] == s[a + i + k];
    }
  }

  /** Inside an occurrence, `s` and `p` agree character by character. */
  lemma OccursAtIndex(s: string, p: string, i: int, k: int)
    requires OccursAt(s, p, i) && 0 <= k < |p|
    ensures s[i + k] == p[k]
  {
    assert s[i..i + |p|][k] == s[i + k];
  }

  /** An occurrence inside the slice `s[a..b]` is an occurrence in `s` that
      fits between `a` and `b`. */
  lemma OccursInSlice(s: string, p: string, a: nat, b: nat, j: int)
    requires a <= b <= |s|
    ensures OccursAt(s[a..b], p, j) <==> (0 <= j && a + j + |p| <= b && OccursAt(s, p, a + j))
  {
    if 0 <= j && a + j + |p| <= b {
      SliceOfSlice(s, a, b, j, j + |p|);
    }
  }

  /** A one-character pattern occurs exactly where that character is. */
  lemma OccursAtChar(s: string, c: char, i: int)
    ensures OccursAt(s, [c], i) <==> (0 <= i < |s| && s[i] == c)
  {
    if 0 <= i < |s| {
      assert s[i..i + 1] == [s[i]];
    }
  }

  /** Index of the leftmost occurrence of `p` in `s`: Python's `s.find(p)`,
      with `None` for -1. */
  function Find(s: string, p: string): (r: Option<nat>)
    ensures r.Some? ==> OccursAt(s, p, r.value)
    ensures r.Some? ==> forall j | 0 <= j < r.value :: !OccursAt(s, p, j)
    ensures r.None? ==> forall j :: !OccursAt(s, p, j)
  {
    FindFrom(s, p, 0)
  }

  /** The leftmost occurrence of `p` in `s` at or after index `i`, found by
      trying each start position in turn. */
  function FindFrom(s: string, p: string, i: nat): (r: Option<nat>)
    ensures r.Some? ==> i <= r.value && OccursAt(s, p, r.value)
    ensures r.Some? ==> forall j | i <= j < r.value :: !OccursAt(s, p, j)
    ensures r.None? ==> forall j | i <= j :: !OccursAt(s, p, j)
    decreases |s| - i
  {
    if |s| < i + |p| then None
    else if s[i..i + |p|] == p then Some(i)
    else FindFrom(s, p, i + 1)
  }

  /** `Find` succeeds exactly when `p in s`. */
  lemma FindContains(s: string, p: string)
    ensures Find(s, p).Some? <==> Contains(s, p)
  {
  }

  /** An occurrence with no occurrence before it is the one `Find` reports. */
  lemma FindIs(s: string, p: string, i: nat)
    requires OccursAt(s, p, i)
    requires forall j | 0 <= j < i :: !OccursAt(s, p, j)
    ensures Find(s, p) == Some(i)
  {
  }

  /** Python's `c in s` for a single character. */
  lemma ContainsChar(s: string, c: char)
    ensures Contains(s, [c]) <==> c in s
  {
    if c in s {
      var i :| 0 <= i < |s| && s[i] == c;
      OccursAtChar(s, c, i);
    }
    if Contains(s, [c]) {
      var i :| 0 <= i <= |s| - 1 && OccursAt(s, [c], i);
      OccursAtChar(s, c, i);
    }
  }

  /** A pattern that occurs in a slice of `s` occurs in `s`. */
  lemma ContainsInSlice(s: string, p: string, a: nat, b: nat)
    requires a <= b <= |s|
    requires Contains(s[a..b], p)
    ensures Contains(s, p)
  {
    var j :| 0 <= j <= b - a - |p| && OccursAt(s[a..b], p, j);
    OccursInSlice(s, p, a, b, j);
  }

  /** A pattern that occurs in `b` occurs in `a + b`. */
  lemma ContainsAppended(a: string, b: string, p: string)
    requires Contains(b, p)
    ensures Contains(a + b, p)
  {
    assert (a + b)[|a|..|a + b|] == b;
    ContainsInSlice(a + b, p, |a|, |a + b|);
  }

  /** A text that contains `p + q` contains `p`. */
  lemma ContainsLonger(s: string, p: string, q: string)
    requires Contains(s, p + q)
    ensures Contains(s, p)
  {
    var i :| 0 <= i <= |s| - |p + q| && OccursAt(s, p + q, i);
    assert s[i..i + |p|] == s[i..i + |p + q|][..|p|];
    assert OccursAt(s, p, i);
  }

  /** A text that contains `p + q` contains `q`. */
  lemma ContainsEnd(s: string, p: string, q: string)
    requires Contains(s, p + q)
    ensures Contains(s, q)
  {
    var i :| 0 <= i <= |s| - |p + q| && OccursAt(s, p + q, i);
    assert s[i + |p|..i + |p| + |q|] == s[i..i + |p + q|][|p|..];
    assert OccursAt(s, q, i + |p|);
  }

  /** A text lacking one of the characters of `p` does not contain `p`. */
  lemma MissingChar(s: string, p: string, k: nat)
    requires k < |p| && p[k] !in s
    ensures !Contains(s, p)
  {
    if Contains(s, p) {
      var i :| 0 <= i <= |s| - |p| && OccursAt(s, p, i);
      OccursAtIndex(s, p, i, k);
    }
  }

  /** The text before the leftmost occurrence holds no occurrence. */
  lemma NoneBefore(s: string, p: string, i: nat)
    requires |p| > 0 && i <= |s|
    requires forall j | 0 <= j < i :: !OccursAt(s, p, j)
    ensures !Contains(s[..i], p)
  {
    if Contains(s[..i], p) {
      var j :| 0 <= j <= i - |p| && OccursAt(s[..i], p, j);
      OccursInSlice(s, p, 0, i, j);
    }
  }

  /** Every piece but the last, followed by the separator, has its leftmost
      occurrence of the separator right after the piece: each cut falls at the
      leftmost occurrence after the previous cut. */
  predicate LeftmostCuts(parts: seq<string>, sep: string)
  {
    forall k | 0 <= k < |parts| - 1 :: Find(parts[k] + sep, sep) == Some(|parts[k]|)
  }

  /** Python's `s.split(sep)` for a non-empty separator: the pieces between
      the leftmost, non-overlapping occurrences of `sep`, in order. */
  function Split(s: string, sep: string): (parts: seq<string>)
    requires |sep| > 0
    ensures |parts| >= 1
    ensures forall k | 0 <= k < |parts| :: !Contains(parts[k], sep)
    ensures LeftmostCuts(parts, sep)
    decreases |s|
  {
    match Find(s, sep)
    case None => [s]
    case Some(i) =>
      NoneBefore(s, sep, i);
      FirstCut(s, sep, i);
      [s[..i]] + Split(s[i + |sep|..], sep)
  }

  /** The piece before the leftmost occurrence, followed by the separator,
      has its leftmost occurrence right after the piece: the cut falls where
      the scan found it. */
  lemma FirstCut(s: string, sep: string, i: nat)
    requires |sep| > 0
    requires Find(s, sep) == Some(i)
    ensures Find(s[..i] + sep, sep) == Some(i)
  {
    var t := s[..i] + sep;
    assert t == s[0..i + |sep|];
    forall j | 0 <= j < i
      ensures !OccursAt(t, sep, j)
    {
      OccursInSlice(s, sep, 0, i + |sep|, j);
    }
    assert OccursAt(t, sep, i);
    FindIs(t, sep, i);
  }

  /** One step of a split: the piece before the leftmost occurrence, then the
      split of what follows it. */
  lemma SplitStep(s: string, sep: string, i: nat)
    requires |sep| > 0
    requires Find(s, sep) == Some(i)
    ensures Split(s, sep) == [s[..i]] + Split(s[i + |sep|..], sep)
    ensures Split(s, sep)[1..] == Split(s[i + |sep|..], sep)
  {
  }

  /** The total length of some texts. */
  function TotalLength(parts: seq<string>): nat
  {
    if |parts| == 0 then 0 else |parts[0]| + TotalLength(parts[1..])
  }

  /** Python's `sep.join(parts)`: the pieces in order with one separator
      between each two, so the result opens with the first piece and, when
      there are two or more, the separator follows it. */
  function Join(parts: seq<string>, sep: string): (r: string)
    ensures |parts| == 0 ==> r == ""
    ensures |parts| >= 1 ==> StartsWith(r, parts[0])
    ensures |parts| >= 2 ==> OccursAt(r, sep, |parts[0]|)
  {
    if |parts| == 0 then ""
    else if |parts| == 1 then
      assert parts[0][..|parts[0]|] == parts[0];
      parts[0]
    else
      var r := parts[0] + sep + Join(parts[1..], sep);
      assert r[..|parts[0]|] == parts[0];
      assert r[|parts[0]|..|parts[0]| + |sep|] == sep;
      r
  }

  /** The join is as long as its pieces and the separators between them. */
  lemma {:induction false} JoinLength(parts: seq<string>, sep: string)
    requires |parts| >= 1
    ensures |Join(parts, sep)| == TotalLength(parts) + (|parts| - 1) * |sep|
    decreases |parts|
  {
    if |parts| >= 2 {
      JoinLength(parts[1..], sep);
      assert (|parts| - 1) * |sep| == (|parts| - 2) * |sep| + |sep|;
    }
  }

  /** A list of pieces is the split of a text exactly when joining them gives
      the text back, no piece holds the separator, and every cut but the last
      falls at the leftmost occurrence after the previous one. */
  lemma {:induction false} SplitUnique(s: string, sep: string, parts: seq<string>)
    requires |sep| > 0 && |parts| >= 1
    requires Join(parts, sep) == s
    requires forall k | 0 <= k < |parts| :: !Contains(parts[k], sep)
    requires LeftmostCuts(parts, sep)
    ensures Split(s, sep) == parts
    decreases |parts|
  {
    if |parts| == 1 {
      FindContains(s, sep);
    } else {
      var head := parts[0];
      var tail := parts[1..];
      var rest := Join(tail, sep);
      assert s == head + sep + rest;
      var t := head + sep;
      assert t == s[0..|head| + |sep|];
      forall j | 0 <= j < |head|
        ensures !OccursAt(s, sep, j)
      {
        OccursInSlice(s, sep, 0, |head| + |sep|, j);
      }
      FindIs(s, sep, |head|);
      SplitStep(s, sep, |head|);
      assert s[..|head|] == head;
      assert s[|head| + |sep|..] == rest;
      forall k | 0 <= k < |tail|
        ensures !Contains(tail[k], sep)
      {
        assert tail[k] == parts[k + 1];
      }
      assert LeftmostCuts(tail, sep) by {
        forall k | 0 <= k < |tail| - 1
          ensures Find(tail[k] + sep, sep) == Some(|tail[k]|)
        {
          assert tail[k] == parts[k + 1];
        }
      }
      SplitUnique(rest, sep, tail);
      assert parts == [head] + tail;
    }
  }

  /** Joining the pieces of a split with the same separator gives back the text. */
  lemma {:induction false} JoinSplit(s: string, sep: string)
    requires |sep| > 0
    ensures Join(Split(s, sep), sep) == s
    decreases |s|
  {
    match Find(s, sep)
    case None =>
    case Some(i) =>
      var rest := s[i + |sep|..];
      JoinSplit(rest, sep);
      SplitStep(s, sep, i);
      JoinCons(s[..i], Split(rest, sep), sep);
      assert s[i..i + |sep|] == sep;
      assert s == s[..i] + s[i..i + |sep|] + rest;
  }

  /** Splitting a join of one-character-separated pieces, none of which holds
      the separator, gives back the pieces. */
  lemma {:induction false} SplitJoin(parts: seq<string>, sep: string)
    requires |sep| == 1
    requires |parts| >= 1
    requires forall k | 0 <= k < |parts| :: sep[0] !in parts[k]
    ensures Split(Join(parts, sep), sep) == parts
    decreases |parts|
  {
    assert sep == [sep[0]];
    if |parts| == 1 {
      ContainsChar(parts[0], sep[0]);
      FindContains(parts[0], sep);
    } else {
      var head := parts[0];
      var tail := parts[1..];
      var rest := Join(tail, sep);
      var s := head + sep + rest;
      assert Join(parts, sep) == s;
      OccursAtChar(s, sep[0], |head|);
      forall j | 0 <= j < |head|
        ensures !OccursAt(s, sep, j)
      {
        OccursAtChar(s, sep[0], j);
      }
      FindIs(s, sep, |head|);
      SplitStep(s, sep, |head|);
      assert s[..|head|] == head;
      assert s[|head| + |sep|..] == rest;
      SplitJoin(tail, sep);
    }
  }

  /** Python's `s.split(sep)[0]`: the text before the leftmost occurrence of
      `sep`, or all of `s` when `sep` does not occur. */
  function SplitHead(s: string, sep: string): (h: string)
    requires |sep| > 0
    ensures |h| <= |s| && h == s[..|h|]
    ensures forall j | 0 <= j < |h| :: !OccursAt(s, sep, j)
    ensures |h| == |s| || OccursAt(s, sep, |h|)
    ensures !Contains(h, sep)
  {
    Split(s, sep)[0]
  }

  /** Python's `s.split(sep)[1]`: the text after the leftmost occurrence of
      `sep`, up to the next one; IndexError when `sep` does not occur. */
  function SplitSecond(s: string, sep: string): (r: Result<string>)
    requires |sep| > 0
    ensures r.Ok? <==> Contains(s, sep)
    ensures r.Err? ==> r.error == IndexOutOfRange
    ensures r.Ok? ==> var i := Find(s, sep).value;
                      r.value == SplitHead(s[i + |sep|..], sep)
  {
    FindContains(s, sep);
    var parts := Split(s, sep);
    if |parts| > 1 then Ok(parts[1]) else Err(IndexOutOfRange)
  }

  /** The last piece of a split. */
  function LastPart(s: string, sep: string): string
    requires |sep| > 0
  {
    var parts := Split(s, sep);
    parts[|parts| - 1]
  }

  /** Past the leftmost separator, the last piece is the last piece of the rest. */
  lemma LastPartStep(s: string, sep: string, i: nat)
    requires |sep| > 0
    requires Find(s, sep) == Some(i)
    ensures i + |sep| <= |s|
    ensures LastPart(s, sep) == LastPart(s[i + |sep|..], sep)
  {
    SplitStep(s, sep, i);
  }

  /** Python's `s.split(sep)[-1]`: the piece after the last cut of the
      leftmost split, or all of `s` when `sep` does not occur. */
  function SplitTail(s: string, sep: string): (t: string)
    requires |sep| > 0
    ensures |t| <= |s| && t == s[|s| - |t|..]
    ensures !Contains(t, sep)
    ensures |t| == |s| <==> !Contains(s, sep)
    ensures |t| < |s| ==> OccursAt(s, sep, |s| - |t| - |sep|)
  {
    LastPiece(s, sep);
    FindContains(s, sep);
    if Find(s, sep).Some? then
      LastPieceFollowsSeparator(s, sep);
      LastPart(s, sep)
    else
      LastPart(s, sep)
  }

  /** The last piece of a split is a suffix of the text, and all of it
      exactly when the separator is absent. */
  lemma {:induction false} LastPiece(s: string, sep: string)
    requires |sep| > 0
    ensures |LastPart(s, sep)| <= |s|
    ensures LastPart(s, sep) == s[|s| - |LastPart(s, sep)|..]
    ensures Find(s, sep).None? ==> |LastPart(s, sep)| == |s|
    ensures Find(s, sep).Some? ==> |LastPart(s, sep)| < |s|
    decreases |s|
  {
    match Find(s, sep)
    case None =>
    case Some(i) =>
      var k := i + |sep|;
      var rest := s[k..];
      LastPartStep(s, sep, i);
      LastPiece(rest, sep);
      SuffixOfSuffix(s, k, |rest| - |LastPart(rest, sep)|);
  }

  /** When the separator occurs, the last piece of a split follows an
      occurrence of it. */
  lemma {:induction false} LastPieceFollowsSeparator(s: string, sep: string)
    requires |sep| > 0
    requires Find(s, sep).Some?
    ensures |LastPart(s, sep)| < |s|
    ensures OccursAt(s, sep, |s| - |LastPart(s, sep)| - |sep|)
    decreases |s|
  {
    var i := Find(s, sep).value;
    var k := i + |sep|;
    var rest := s[k..];
    LastPartStep(s, sep, i);
    LastPiece(rest, sep);
    var t := LastPart(rest, sep);
    if Find(rest, sep).Some? {
      LastPieceFollowsSeparator(rest, sep);
      var j := |rest| - |t| - |sep|;
      assert s[k..|s|] == rest;
      OccursInSlice(s, sep, k, |s|, j);
    } else {
      assert |s| - |t| - |sep| == i;
    }
  }

  /** After the last `c`, the last piece of a split on `c` is all that follows. */
  lemma SplitTailAfter(a: string, c: char, b: string)
    requires c !in b
    ensures SplitTail(a + [c] + b, [c]) == b
  {
    var s := a + [c] + b;
    var t := SplitTail(s, [c]);
    if |t| > |b| {
      assert t[|t| - |b| - 1] == s[|a|];
      assert c in t;
      ContainsChar(t, c);
    } else if |t| < |b| {
      var m := |s| - |t| - 1;
      OccursAtChar(s, c, m);
    }
    assert s[|s| - |b|..] == b;
  }

  /** Dropping `k` and then `m` characters drops `k + m`. */
  lemma SuffixOfSuffix(s: string, k: nat, m: nat)
    requires k + m <= |s|
    ensures s[k..][m..] == s[k + m..]
  {
  }

  /** Python's `s.replace(p, "")`: every leftmost, non-overlapping occurrence
      of `p` removed. */
  function RemoveAll(s: string, p: string): (r: string)
    requires |p| > 0
    ensures !Contains(s, p) ==> r == s
    ensures Contains(s, p) ==> |r| <= |s| - |p|
    decreases |s|
  {
    FindContains(s, p);
    match Find(s, p)
    case None => s
    case Some(i) => s[..i] + RemoveAll(s[i + |p|..], p)
  }

  /** `s.replace(p, "")` equals `"".join(s.split(p))`. */
  lemma {:induction false} RemoveAllIsSplitJoin(s: string, p: string)
    requires |p| > 0
    ensures RemoveAll(s, p) == Join(Split(s, p), "")
    decreases |s|
  {
    match Find(s, p)
    case None =>
    case Some(i) =>
      var rest := s[i + |p|..];
      RemoveAllIsSplitJoin(rest, p);
      SplitStep(s, p, i);
      RemoveAllStep(s, p, i);
      JoinCons(s[..i], Split(rest, p), "");
      assert s[..i] + "" == s[..i];
  }

  /** One step of `replace`: the text before the leftmost occurrence, then
      the rest with its occurrences removed. */
  lemma RemoveAllStep(s: string, p: string, i: nat)
    requires |p| > 0
    requires Find(s, p) == Some(i)
    ensures RemoveAll(s, p) == s[..i] + RemoveAll(s[i + |p|..], p)
  {
    match Find(s, p)
    case Some(j) =>
      assert j == i;
  }

  /** Joining a first piece in front of at least one more. */
  lemma JoinCons(x: string, rest: seq<string>, sep: string)
    requires |rest| >= 1
    ensures Join([x] + rest, sep) == x + sep + Join(rest, sep)
  {
    assert ([x] + rest)[1..] == rest;
  }

  /** `p` is one character repeated. */
  predicate Uniform(p: string)
  {
    forall k | 0 <= k < |p| :: p[k] == p[0]
  }

  /** Two texts without a uniform pattern, the first not ending in its
      character, cannot form the pattern when put together. */
  lemma ConcatNoUniform(a: string, b: string, p: string)
    requires |p| > 0 && Uniform(p)
    requires !Contains(a, p) && !Contains(b, p)
    requires |a| == 0 || a[|a| - 1] != p[0]
    ensures !Contains(a + b, p)
  {
    var s := a + b;
    forall j | 0 <= j <= |s| - |p|
      ensures !OccursAt(s, p, j)
    {
      if j + |p| <= |a| {
        assert s[0..|a|] == a;
        OccursInSlice(s, p, 0, |a|, j);
      } else if j >= |a| {
        assert s[|a|..|s|] == b;
        OccursInSlice(s, p, |a|, |s|, j - |a|);
      } else if OccursAt(s, p, j) {
        OccursAtIndex(s, p, j, |a| - 1 - j);
      }
    }
  }

  /** A uniform pattern preceded by its own character also occurs one
      position earlier. */
  lemma UniformShift(s: string, p: string, i: nat)
    requires |p| > 0 && Uniform(p)
    requires OccursAt(s, p, i) && i > 0 && s[i - 1] == p[0]
    ensures OccursAt(s, p, i - 1)
  {
    forall k | 0 <= k < |p|
      ensures s[i - 1..i - 1 + |p|][k] == p[k]
    {
      if k > 0 {
        OccursAtIndex(s, p, i, k - 1);
      }
    }
  }

  /** Removing a uniform pattern leaves no occurrence of it. */
  lemma {:induction false} RemoveAllUniform(s: string, p: string)
    requires |p| > 0 && Uniform(p)
    ensures !Contains(RemoveAll(s, p), p)
    decreases |s|
  {
    match Find(s, p)
    case None =>
      FindContains(s, p);
    case Some(i) =>
      var rest := s[i + |p|..];
      RemoveAllUniform(rest, p);
      RemoveAllStep(s, p, i);
      NoneBefore(s, p, i);
      if i > 0 && s[i - 1] == p[0] {
        UniformShift(s, p, i);
      }
      ConcatNoUniform(s[..i], RemoveAll(rest, p), p);
  }

  /** A character absent from `p` cannot lie inside an occurrence of `p`. */
  lemma NoneAcross(a: string, c: char, b: string, p: string)
    requires c !in p
    requires !Contains(a, p) && !Contains(b, p)
    ensures !Contains(a + [c] + b, p)
  {
    var s := a + [c] + b;
    forall j | 0 <= j <= |s| - |p|
      ensures !OccursAt(s, p, j)
    {
      if j + |p| <= |a| {
        assert s[0..|a|] == a;
        OccursInSlice(s, p, 0, |a|, j);
      } else if j > |a| {
        assert s[|a| + 1..|s|] == b;
        OccursInSlice(s, p, |a| + 1, |s|, j - |a| - 1);
      } else if OccursAt(s, p, j) {
        OccursAtIndex(s, p, j, |a| - j);
      }
    }
  }

  /** After a text without `p` and a character absent from `p`, an
      occurrence of `p` is the leftmost one. */
  lemma FindAfter(a: string, c: char, p: string, rest: string)
    requires c !in p
    requires !Contains(a, p)
    ensures Find(a + [c] + p + rest, p) == Some(|a| + 1)
  {
    var s := a + [c] + p + rest;
    assert s[|a| + 1..|a| + 1 + |p|] == p;
    forall j | 0 <= j < |a| + 1
      ensures !OccursAt(s, p, j)
    {
      if j + |p| <= |a| {
        assert s[0..|a|] == a;
        OccursInSlice(s, p, 0, |a|, j);
      } else if OccursAt(s, p, j) {
        OccursAtIndex(s, p, j, |a| - j);
      }
    }
    FindIs(s, p, |a| + 1);
  }

  /** The characters for which Python's `str.isspace()` holds, which are
      what `strip()` removes when called without an argument. */
  const WhitespaceChars: string := "\t\n\U{0B}\U{0C}\r\U{1C}\U{1D}\U{1E}\U{1F} \U{85}\U{A0}\U{1680}\U{2000}\U{2001}\U{2002}\U{2003}\U{2004}\U{2005}\U{2006}\U{2007}\U{2008}\U{2009}\U{200A}\U{2028}\U{2029}\U{202F}\U{205F}\U{3000}"

  /** Every character of `t` is one of `cs`. */
  predicate AllIn(t: string, cs: string)
  {
    forall k | 0 <= k < |t| :: t[k] in cs
  }

  /** `t` neither starts nor ends with one of `cs`. */
  predicate TrimmedOf(t: string, cs: string)
  {
    |t| == 0 || (t[0] !in cs && t[|t| - 1] !in cs)
  }

  /** `t` neither starts nor ends with whitespace. */
  predicate Trimmed(t: string)
  {
    TrimmedOf(t, WhitespaceChars)
  }

  /** `s[a..e]` is what is left of `s` once the characters of `cs` are cut
      off both its ends. */
  predicate StrippedAt(s: string, cs: string, a: int, e: int)
  {
    && 0 <= a <= e <= |s|
    && (forall m | 0 <= m < a :: s[m] in cs)
    && (forall m | e <= m < |s| :: s[m] in cs)
    && (a == e || (s[a] !in cs && s[e - 1] !in cs))
  }

  /** The first index at or after `i` that does not hold one of `cs`. */
  function SkipChars(s: string, cs: string, i: nat): (k: nat)
    requires i <= |s|
    ensures i <= k <= |s|
    ensures forall m | i <= m < k :: s[m] in cs
    ensures k == |s| || s[k] !in cs
    decreases |s| - i
  {
    if i < |s| && s[i] in cs then SkipChars(s, cs, i + 1) else i
  }

  /** The end of `s[lo..j]` once the characters of `cs` are cut off its end. */
  function SkipCharsBack(s: string, cs: string, lo: nat, j: nat): (k: nat)
    requires lo <= j <= |s|
    ensures lo <= k <= j
    ensures forall m | k <= m < j :: s[m] in cs
    ensures k == lo || s[k - 1] !in cs
    decreases j
  {
    if j > lo && s[j - 1] in cs then SkipCharsBack(s, cs, lo, j - 1) else j
  }

  /** Python's `s.strip(cs)`: `s` with the characters of `cs` cut off both
      ends, found by a forward scan and then a backward one. */
  function StripChars(s: string, cs: string): (r: string)
    ensures TrimmedOf(r, cs)
    ensures exists a, e :: StrippedAt(s, cs, a, e) && r == s[a..e]
  {
    var a := SkipChars(s, cs, 0);
    var e := SkipCharsBack(s, cs, a, |s|);
    assert StrippedAt(s, cs, a, e);
    s[a..e]
  }

  /** Python's `s.strip()`: `s` with its leading and trailing whitespace cut off. */
  function Strip(s: string): (r: string)
    ensures Trimmed(r)
    ensures exists a, e :: StrippedAt(s, WhitespaceChars, a, e) && r == s[a..e]
  {
    StripChars(s, WhitespaceChars)
  }

  /** The bounds of the slice `StripChars` keeps. */
  lemma StripCharsBounds(s: string, cs: string) returns (a: int, e: int)
    ensures StrippedAt(s, cs, a, e)
    ensures StripChars(s, cs) == s[a..e]
  {
    a := SkipChars(s, cs, 0);
    e := SkipCharsBack(s, cs, a, |s|);
  }

  /** The stripped text is the only slice without `cs` at its ends and with
      nothing but `cs` around it. */
  lemma StripCharsUnique(s: string, cs: string, a: int, e: int)
    requires StrippedAt(s, cs, a, e)
    ensures StripChars(s, cs) == s[a..e]
  {
    var i := SkipChars(s, cs, 0);
    var j := SkipCharsBack(s, cs, i, |s|);
    if a < e {
      assert i == a;
      assert j == e;
    } else {
      assert i == |s|;
    }
  }

  /** Stripping twice is stripping once. */
  lemma StripIdempotent(s: string)
    ensures Strip(Strip(s)) == Strip(s)
  {
    var r := Strip(s);
    assert StrippedAt(r, WhitespaceChars, 0, |r|);
    StripCharsUnique(r, WhitespaceChars, 0, |r|);
  }

  /** A slice left by stripping stays one when characters of `cs` are added
      around the text. */
  lemma StrippedAtPadded(p: string, x: string, q: string, cs: string, a: int, e: int)
    requires AllIn(p, cs) && AllIn(q, cs)
    requires StrippedAt(x, cs, a, e)
    ensures StrippedAt(p + x + q, cs, |p| + a, |p| + e)
    ensures (p + x + q)[|p| + a..|p| + e] == x[a..e]
  {
    var s := p + x + q;
    forall m | 0 <= m < |p| + a
      ensures s[m] in cs
    {
      if m < |p| {
        assert s[m] == p[m];
      } else {
        assert s[m] == x[m - |p|];
      }
    }
    forall m | |p| + e <= m < |s|
      ensures s[m] in cs
    {
      if m < |p| + |x| {
        assert s[m] == x[m - |p|];
      } else {
        assert s[m] == q[m - |p| - |x|];
      }
    }
    if a < e {
      assert s[|p| + a] == x[a];
      assert s[|p| + e - 1] == x[e - 1];
    }
  }

  /** Characters of `cs` added around a text do not change what it strips to. */
  lemma StripCharsPadded(p: string, x: string, q: string, cs: string)
    requires AllIn(p, cs) && AllIn(q, cs)
    ensures StripChars(p + x + q, cs) == StripChars(x, cs)
  {
    var a, e := StripCharsBounds(x, cs);
    StrippedAtPadded(p, x, q, cs, a, e);
    StripCharsUnique(p + x + q, cs, |p| + a, |p| + e);
  }

  /** Whitespace added around a text does not change what it strips to. */
  lemma StripPadded(p: string, x: string, q: string)
    requires AllIn(p, WhitespaceChars) && AllIn(q, WhitespaceChars)
    ensures Strip(p + x + q) == Strip(x)
  {
    StripCharsPadded(p, x, q, WhitespaceChars);
  }

  /** Whatever occurs in the stripped text occurs in the original. */
  lemma StripContains(s: string, p: string)
    requires Contains(Strip(s), p)
    ensures Contains(s, p)
  {
    var r := Strip(s);
    var a, e :| StrippedAt(s, WhitespaceChars, a, e) && r == s[a..e];
    ContainsInSlice(s, p, a, e);
  }
}

=== FILE: reply.dfy ===
/** How both revisions of `summarize_with_gemini` tidy the model's reply
    before handing it to `json.loads`: strip it, and when it opens with a
    ```` ```json ```` fence, delete every ```` ```json ```` and every
    ```` ``` ```` in it and strip again. The two revisions do this with the
    same three lines, so the operation is modelled once.
 */
module ReplyCleaning {
  import opened PyStr

  /** The opening of a Markdown code block tagged as JSON. */
  const JsonFence := "```json"
  /** A Markdown code-block fence. */
  const Fence := "```"

  /** The raw text handed to `json.loads` for a reply `reply`. A reply that
      does not open with a JSON fence is only stripped; one that does is left
      with no fence anywhere in it. */
  function CleanReply(reply: string): (r: string)
    ensures Trimmed(r)
    ensures !StartsWith(Strip(reply), JsonFence) ==> r == Strip(reply)
    ensures StartsWith(Strip(reply), JsonFence) ==> !Contains(r, Fence)
  {
    var raw := Strip(reply);
    if StartsWith(raw, JsonFence) then
      Unfenced(raw);
      Strip(RemoveAll(RemoveAll(raw, JsonFence), Fence))
    else
      raw
  }

  /** Deleting the JSON fences, then the fences, then stripping leaves no
      fence. */
  lemma Unfenced(raw: string)
    ensures !Contains(Strip(RemoveAll(RemoveAll(raw, JsonFence), Fence)), Fence)
  {
    var once := RemoveAll(raw, JsonFence);
    FenceUniform();
    RemoveAllUniform(once, Fence);
    StripKeepsOut(RemoveAll(once, Fence), Fence);
  }

  /** A backtick is not whitespace. */
  lemma BacktickNotSpace()
    ensures '`' !in WhitespaceChars
  {
  }

  /** A newline is whitespace. */
  lemma NewlineIsSpace()
    ensures AllIn("\n", WhitespaceChars)
  {
    assert "\n"[0] == WhitespaceChars[1];
  }

  /** A fence is one character repeated. */
  lemma FenceUniform()
    ensures |Fence| > 0 && Uniform(Fence)
  {
  }

  /** A text that opens with a JSON fence contains a fence. */
  lemma JsonFenceHasFence(t: string)
    requires StartsWith(t, JsonFence)
    ensures Contains(t, Fence)
  {
    assert JsonFence == Fence + "json";
    assert OccursAt(t, JsonFence, 0);
    ContainsLonger(t, Fence, "json");
  }

  /** Stripping does not bring in a pattern that was absent. */
  lemma StripKeepsOut(s: string, p: string)
    requires !Contains(s, p)
    ensures !Contains(Strip(s), p)
  {
    if Contains(Strip(s), p) {
      StripContains(s, p);
    }
  }

  /** Cleaning an already cleaned reply changes nothing. */
  lemma CleanIdempotent(reply: string)
    ensures CleanReply(CleanReply(reply)) == CleanReply(reply)
  {
    var r := CleanReply(reply);
    var raw := Strip(reply);
    if StartsWith(raw, JsonFence) {
      var bare := RemoveAll(RemoveAll(raw, JsonFence), Fence);
      StripIdempotent(bare);
      if StartsWith(r, JsonFence) {
        JsonFenceHasFence(r);
      }
    } else {
      StripIdempotent(reply);
    }
  }

  /** Without any fence, a text is not fenced, even once stripped. */
  lemma UnfencedClean(x: string)
    requires !Contains(x, Fence)
    ensures CleanReply(x) == Strip(x)
  {
    if StartsWith(Strip(x), JsonFence) {
      JsonFenceHasFence(Strip(x));
      StripContains(x, Fence);
    }
  }

  /** A fence-free text between two newlines holds no fence. */
  lemma NewlinesAround(x: string)
    requires !Contains(x, Fence)
    ensures !Contains("\n" + x, Fence) && !Contains("\n" + x + "\n", Fence)
  {
    NoneAcross([], '\n', x, Fence);
    assert [] + ['\n'] + x == "\n" + x;
    NoneAcross("\n" + x, '\n', [], Fence);
    assert ("\n" + x) + ['\n'] + [] == "\n" + x + "\n";
  }

  /** Deleting the JSON fences from a fenced fence-free text deletes only the
      opening one. */
  lemma RemoveOpeningFence(x: string)
    requires !Contains(x, Fence)
    ensures RemoveAll(JsonFence + "\n" + x + "\n" + Fence, JsonFence) == "\n" + x + "\n" + Fence
  {
    var s := JsonFence + "\n" + x + "\n" + Fence;
    var t := "\n" + x + "\n" + Fence;
    assert s == JsonFence + t;
    assert OccursAt(s, JsonFence, 0);
    FindIs(s, JsonFence, 0);
    assert s[|JsonFence|..] == t;
    NewlinesAround(x);
    NoJsonFenceBeforeClose("\n" + x, t);
    FindContains(t, JsonFence);
  }

  /** Deleting the fences from a fence-free text followed by a newline and a
      fence deletes only that last fence. */
  lemma RemoveClosingFence(x: string)
    requires !Contains(x, Fence)
    ensures RemoveAll("\n" + x + "\n" + Fence, Fence) == "\n" + x + "\n"
  {
    var t := "\n" + x + "\n" + Fence;
    NewlinesAround(x);
    FindAfter("\n" + x, '\n', Fence, []);
    assert t == "\n" + x + ['\n'] + Fence + [];
    assert t[..|x| + 2] == "\n" + x + "\n";
    assert t[|x| + 2 + |Fence|..] == [];
  }

  /** A text made of a fence-free part, a newline and a closing fence does
      not contain a JSON fence, which is longer than the closing fence. */
  lemma NoJsonFenceBeforeClose(a: string, t: string)
    requires !Contains(a + "\n", Fence)
    requires t == a + "\n" + Fence
    ensures !Contains(t, JsonFence)
  {
    if Contains(t, JsonFence) {
      var i :| 0 <= i <= |t| - |JsonFence| && OccursAt(t, JsonFence, i);
      assert JsonFence == Fence + "json";
      assert t[i..i + |Fence|] == t[i..i + |JsonFence|][..|Fence|];
      assert t[0..|a| + 1] == a + "\n";
      OccursInSlice(t, Fence, 0, |a| + 1, i);
    }
  }

  /** A JSON object wrapped in a JSON code block cleans to the same text as
      the bare object: the fences and the newlines around the object go. */
  lemma CleanFencedEqualsBare(x: string)
    requires !Contains(x, Fence)
    ensures CleanReply(JsonFence + "\n" + x + "\n" + Fence) == CleanReply(x)
  {
    var s := JsonFence + "\n" + x + "\n" + Fence;
    BacktickNotSpace();
    assert StrippedAt(s, WhitespaceChars, 0, |s|) by {
      assert s[0] == '`' && s[|s| - 1] == '`';
    }
    StripCharsUnique(s, WhitespaceChars, 0, |s|);
    assert s[0..|s|] == s;
    assert OccursAt(s, JsonFence, 0);
    RemoveOpeningFence(x);
    RemoveClosingFence(x);
    NewlineIsSpace();
    StripPadded("\n", x, "\n");
    UnfencedClean(x);
  }
}

=== FILE: results.dfy ===
/** Failure-compatible wrappers used throughout the model.

    A Python exception that escapes a function is modelled as `Err(message)`,
    where `message` is what `str(e)` would give for that exception, because
    that string is all the service ever shows of an error.
 */
module Results {

  /** An optional value: Python's `None` or a present value. */
  datatype Option<+T> = None | Some(value: T)

  /** Either a value or the message of the exception that was raised instead. */
  datatype Result<+T> = Ok(value: T) | Err(error: string) {

    predicate IsFailure() {
      Err?
    }

    function PropagateFailure<U>(): Result<U>
      requires Err?
    {
      Err(error)
    }

    function Extract(): T
      requires Ok?
    {
      value
    }
  }
}

=== FILE: summarizer.dfy ===
/** `summarize_with_gemini` in both revisions: refuse to run without an API
    key, send the transcript inside a fixed prompt to a Gemini model, tidy the
    reply and parse it as JSON.

    The model call and `json.loads` are not part of this model. They are
    passed in as functions: `generate` maps a request to the reply text or
    the message of the exception raised, and `parse` maps a text to the
    parsed value of type `V` or the message of the JSONDecodeError.
 */
module Summarizer {
  import opened Results
  import opened PyStr
  import opened ReplyCleaning

  /** What is sent to Gemini: the model name and the prompt. */
  datatype Request = Request(model: string, prompt: string)

  /** The model `index.py` asks. */
  const RootModel := "gemini-2.5-pro"
  /** The model `api/index.py` asks. */
  const ApiModel := "gemini-1.5-flash"

  /** The prompt of `index.py` before and after the transcript. */
  const RootPromptHead := "Return a brief JSON summary:\n{\n  \"topic_name\": \"name of topic\",\n  \"topic_summary\": \"summary of topic\"\n}\n\nTranscript:\n\"\"\" \n"
  const RootPromptTail := "\n\"\"\""

  /** The prompt of `api/index.py` before and after the transcript. */
  const ApiPromptHead := "Based on the following YouTube transcript, return a brief summary in this JSON format only:\n    {\n      \"topic_name\": \"name of topic\",\n      \"topic_summary\": \"summary of topic\"\n    }\n\n    Transcript:\n    \"\"\"\n    "
  const ApiPromptTail := "\n    \"\"\""

  /** The exceptions of `index.py`. */
  const MissingKey := "\U{274C} Gemini API key not set."
  const ParseFailed := "\U{274C} Failed to parse Gemini output: "

  /** The exceptions of `api/index.py`. */
  const ApiMissingKey := "Gemini API key not set in environment."
  const ApiParseFailed := "Failed to parse Gemini response as JSON: "
  const ApiRawResponse := "\nRaw response: "

  /** The key read from the environment counts as set, as `not KEY` is false:
      present and not empty. */
  predicate KeySet(apiKey: Option<string>)
  {
    apiKey.Some? && |apiKey.value| > 0
  }

  /** A prompt made of a fixed head, the transcript and a fixed tail; the
      transcript is recovered by cutting the head and tail off again. */
  function Prompt(head: string, transcript: string, tail: string): (p: string)
    ensures StartsWith(p, head)
    ensures |p| == |head| + |transcript| + |tail|
    ensures p[|head|..|head| + |transcript|] == transcript
    ensures p[|head| + |transcript|..] == tail
  {
    var p := head + transcript + tail;
    assert p[..|head|] == head;
    p
  }

  /** The transcript always appears in the prompt. */
  lemma PromptHoldsTranscript(head: string, transcript: string, tail: string)
    ensures Contains(Prompt(head, transcript, tail), transcript)
  {
    var p := Prompt(head, transcript, tail);
    assert OccursAt(p, transcript, |head|);
  }

  /** Two different transcripts never give the same prompt. */
  lemma PromptInjective(head: string, t1: string, t2: string, tail: string)
    requires Prompt(head, t1, tail) == Prompt(head, t2, tail)
    ensures t1 == t2
  {
  }

  /** The request `index.py` sends for a transcript. */
  function RootRequest(transcript: string): (q: Request)
    ensures q.model == RootModel
    ensures StartsWith(q.prompt, RootPromptHead)
    ensures |q.prompt| == |RootPromptHead| + |transcript| + |RootPromptTail|
    ensures q.prompt[|RootPromptHead|..|RootPromptHead| + |transcript|] == transcript
    ensures q.prompt[|RootPromptHead| + |transcript|..] == RootPromptTail
  {
    Request(RootModel, Prompt(RootPromptHead, transcript, RootPromptTail))
  }

  /** The request `api/index.py` sends for a transcript. */
  function ApiRequest(transcript: string): (q: Request)
    ensures q.model == ApiModel
    ensures StartsWith(q.prompt, ApiPromptHead)
    ensures |q.prompt| == |ApiPromptHead| + |transcript| + |ApiPromptTail|
    ensures q.prompt[|ApiPromptHead|..|ApiPromptHead| + |transcript|] == transcript
    ensures q.prompt[|ApiPromptHead| + |transcript|..] == ApiPromptTail
  {
    Request(ApiModel, Prompt(ApiPromptHead, transcript, ApiPromptTail))
  }

  /** The message `index.py` raises when the cleaned reply `raw` is not
      JSON: a fixed text followed by `raw`, which can be read back from it. */
  function ParseError(raw: string): (m: string)
    ensures StartsWith(m, ParseFailed)
    ensures m[|ParseFailed|..] == raw
  {
    var m := ParseFailed + raw;
    assert m[..|ParseFailed|] == ParseFailed;
    m
  }

  /** The message `api/index.py` raises when the cleaned reply `raw` is not
      JSON: a fixed text, the decoder's message `e`, a second fixed text and
      `raw`; both `e` and `raw` can be read back from it. */
  function ApiParseError(e: string, raw: string): (m: string)
    ensures StartsWith(m, ApiParseFailed)
    ensures |m| == |ApiParseFailed| + |e| + |ApiRawResponse| + |raw|
    ensures m[|ApiParseFailed|..|ApiParseFailed| + |e|] == e
    ensures m[|ApiParseFailed| + |e|..|m| - |raw|] == ApiRawResponse
    ensures m[|m| - |raw|..] == raw
  {
    var m := ApiParseFailed + e + ApiRawResponse + raw;
    assert m[..|ApiParseFailed|] == ApiParseFailed;
    m
  }

  /** `summarize_with_gemini` of `index.py`. */
  function Summarize<V>(apiKey: Option<string>, transcript: string,
                        generate: Request -> Result<string>, parse: string -> Result<V>): (r: Result<V>)
    ensures !KeySet(apiKey) ==> r == Err(MissingKey)
    ensures KeySet(apiKey) ==>
              var reply := generate(RootRequest(transcript));
              && (reply.Err? ==> r == Err(reply.error))
              && (reply.Ok? && parse(CleanReply(reply.value)).Ok? ==> r == parse(CleanReply(reply.value)))
              && (reply.Ok? && parse(CleanReply(reply.value)).Err? ==>
                    r == Err(ParseError(CleanReply(reply.value))))
  {
    if !KeySet(apiKey) then
      Err(MissingKey)
    else
      var reply :- generate(RootRequest(transcript));
      var raw := CleanReply(reply);
      match parse(raw)
      case Ok(v) => Ok(v)
      case Err(_) => Err(ParseError(raw))
  }

  /** `summarize_with_gemini` of `api/index.py`. */
  function SummarizeApi<V>(apiKey: Option<string>, transcript: string,
                           generate: Request -> Result<string>, parse: string -> Result<V>): (r: Result<V>)
    ensures !KeySet(apiKey) ==> r == Err(ApiMissingKey)
    ensures KeySet(apiKey) ==>
              var reply := generate(ApiRequest(transcript));
              && (reply.Err? ==> r == Err(reply.error))
              && (reply.Ok? && parse(CleanReply(reply.value)).Ok? ==> r == parse(CleanReply(reply.value)))
              && (reply.Ok? && parse(CleanReply(reply.value)).Err? ==>
                    r == Err(ApiParseError(parse(CleanReply(reply.value)).error, CleanReply(reply.value))))
  {
    if !KeySet(apiKey) then
      Err(ApiMissingKey)
    else
      var reply :- generate(ApiRequest(transcript));
      var raw := CleanReply(reply);
      match parse(raw)
      case Ok(v) => Ok(v)
      case Err(e) => Err(ApiParseError(e, raw))
  }

  /** Without a key neither revision asks the model or the parser anything:
      the outcome does not depend on them. */
  lemma NoKeyNoCall<V>(apiKey: Option<string>, transcript: string,
                       g1: Request -> Result<string>, p1: string -> Result<V>,
                       g2: Request -> Result<string>, p2: string -> Result<V>)
    requires !KeySet(apiKey)
    ensures Summarize(apiKey, transcript, g1, p1) == Summarize(apiKey, transcript, g2, p2)
    ensures SummarizeApi(apiKey, transcript, g1, p1) == SummarizeApi(apiKey, transcript, g2, p2)
  {
  }

  /** Two model replies that agree up to cleaning. */
  predicate SameUpToCleaning(a: Result<string>, b: Result<string>)
  {
    && a.Ok? == b.Ok?
    && (a.Err? ==> a.error == b.error)
    && (a.Ok? ==> CleanReply(a.value) == CleanReply(b.value))
  }

  /** `index.py` sees a reply only through its cleaned text: replies that
      agree up to cleaning give the same outcome. */
  lemma SameCleanSameSummary<V>(apiKey: Option<string>, transcript: string,
                                g1: Request -> Result<string>, g2: Request -> Result<string>,
                                parse: string -> Result<V>)
    requires SameUpToCleaning(g1(RootRequest(transcript)), g2(RootRequest(transcript)))
    ensures Summarize(apiKey, transcript, g1, parse) == Summarize(apiKey, transcript, g2, parse)
  {
  }

  /** `api/index.py` sees a reply only through its cleaned text: replies that
      agree up to cleaning give the same outcome. */
  lemma SameCleanSameSummaryApi<V>(apiKey: Option<string>, transcript: string,
                                   g1: Request -> Result<string>, g2: Request -> Result<string>,
                                   parse: string -> Result<V>)
    requires SameUpToCleaning(g1(ApiRequest(transcript)), g2(ApiRequest(transcript)))
    ensures SummarizeApi(apiKey, transcript, g1, parse) == SummarizeApi(apiKey, transcript, g2, parse)
  {
  }

  /** A reply wrapping a fence-free JSON text in a JSON code block gives the
      same summary as the bare text, in both revisions. */
  lemma FencedReplySameSummary<V>(apiKey: Option<string>, transcript: string, x: string,
                                  parse: string -> Result<V>)
    requires !Contains(x, Fence)
    ensures Summarize(apiKey, transcript, _ => Ok(JsonFence + "\n" + x + "\n" + Fence), parse)
         == Summarize(apiKey, transcript, _ => Ok(x), parse)
    ensures SummarizeApi(apiKey, transcript, _ => Ok(JsonFence + "\n" + x + "\n" + Fence), parse)
         == SummarizeApi(apiKey, transcript, _ => Ok(x), parse)
  {
    var fenced: Request -> Result<string> := _ => Ok(JsonFence + "\n" + x + "\n" + Fence);
    var bare: Request -> Result<string> := _ => Ok(x);
    CleanFencedEqualsBare(x);
    SameCleanSameSummary(apiKey, transcript, fenced, bare, parse);
    SameCleanSameSummaryApi(apiKey, transcript, fenced, bare, parse);
  }

  /** What a parse failure reports is the reply as cleaned: stripped, and
      without fences when the reply was fenced. */
  lemma ParseFailureShowsCleanReply<V>(apiKey: Option<string>, transcript: string,
                                       generate: Request -> Result<string>, parse: string -> Result<V>)
    requires KeySet(apiKey)
    requires generate(RootRequest(transcript)).Ok?
    requires parse(CleanReply(generate(RootRequest(transcript)).value)).Err?
    ensures var reply := generate(RootRequest(transcript)).value;
            var shown := Summarize(apiKey, transcript, generate, parse).error[|ParseFailed|..];
            && Summarize(apiKey, transcript, generate, parse) == Err(ParseFailed + shown)
            && Trimmed(shown)
            && CleanReply(shown) == shown
            && (StartsWith(Strip(reply), JsonFence) ==> !Contains(shown, Fence))
  {
    var reply := generate(RootRequest(transcript)).value;
    CleanIdempotent(reply);
  }
}

=== FILE: transcripts.dfy ===
/** How the service obtains the text of a video's transcript.

    `index.py` lists the video's transcripts and takes the first of three
    candidates that exists: a manually created English transcript, an
    automatically generated English one, or the English translation of the
    first listed transcript that can be translated into English. It fetches that
    transcript and joins the text of its entries with newlines.
    `api/index.py` asks the transcript library for the video's default
    transcript, joins the entry texts with spaces, and rewraps any failure
    in a message of its own.

    The transcript library is not part of this model: what it answers is
    given as data (a listing, and for each transcript the outcome of fetching
    or translating it) or as a function from the video id to that answer.
 */
module Transcripts {
  import opened Results
  import opened PyStr

  /** The language code the service asks for. */
  const English := "en"

  /** The exception `index.py` raises when no candidate exists. */
  const NoUsableTranscript := "\U{274C} No usable transcript found."
  /** What `api/index.py` puts before the message of a failed retrieval. */
  const RetrievalFailed := "Could not retrieve transcript: "

  /** A transcript, seen through what fetching it gives: the texts of its
      entries in order, or the message of the exception raised. */
  datatype Transcript = Transcript(fetched: Result<seq<string>>)

  /** A transcript as it appears when iterating over the listing: the
      language codes it can be translated into, and what asking for its
      English translation gives. */
  datatype Listed = Listed(translationLanguages: seq<string>, translatedToEnglish: Result<Transcript>)

  /** What listing a video's transcripts gives: the manually created and the
      generated English transcripts when there are such, and every listed
      transcript in iteration order. */
  datatype TranscriptList = TranscriptList(
    manualEnglish: Option<Transcript>,
    generatedEnglish: Option<Transcript>,
    listed: seq<Listed>)

  /** The listed transcript can be translated into English. */
  predicate Translatable(t: Listed)
  {
    English in t.translationLanguages
  }

  /** Index of the first translatable transcript at or after `k`, as the loop
      of `index.py` finds it before it breaks. */
  function FirstTranslatableFrom(listed: seq<Listed>, k: nat): (r: Option<nat>)
    requires k <= |listed|
    ensures r.Some? ==> k <= r.value < |listed| && Translatable(listed[r.value])
    ensures r.Some? ==> forall j | k <= j < r.value :: !Translatable(listed[j])
    ensures r.None? ==> forall j | k <= j < |listed| :: !Translatable(listed[j])
    decreases |listed| - k
  {
    if k == |listed| then None
    else if Translatable(listed[k]) then Some(k)
    else FirstTranslatableFrom(listed, k + 1)
  }

  /** Index of the first transcript in the listing that can be translated
      into English. */
  function FirstTranslatable(listed: seq<Listed>): (r: Option<nat>)
    ensures r.Some? ==> r.value < |listed| && Translatable(listed[r.value])
    ensures r.Some? ==> forall j | 0 <= j < r.value :: !Translatable(listed[j])
    ensures r.None? <==> forall j | 0 <= j < |listed| :: !Translatable(listed[j])
  {
    FirstTranslatableFrom(listed, 0)
  }

  /** Some candidate transcript exists. */
  predicate HasCandidate(list: TranscriptList)
  {
    || list.manualEnglish.Some?
    || list.generatedEnglish.Some?
    || exists j | 0 <= j < |list.listed| :: Translatable(list.listed[j])
  }

  /** The transcript `index.py` settles on: the manual English one, else the
      generated English one, else the English translation of the first
      translatable one; an exception when there is none, or when asking for
      that translation raises one. */
  function ChooseTranscript(list: TranscriptList): (r: Result<Transcript>)
    ensures list.manualEnglish.Some? ==> r == Ok(list.manualEnglish.value)
    ensures list.manualEnglish.None? && list.generatedEnglish.Some? ==> r == Ok(list.generatedEnglish.value)
    ensures !HasCandidate(list) ==> r == Err(NoUsableTranscript)
    ensures list.manualEnglish.None? && list.generatedEnglish.None? && HasCandidate(list) ==>
              exists j | 0 <= j < |list.listed| ::
                && Translatable(list.listed[j])
                && (forall m | 0 <= m < j :: !Translatable(list.listed[m]))
                && r == list.listed[j].translatedToEnglish
  {
    if list.manualEnglish.Some? then Ok(list.manualEnglish.value)
    else if list.generatedEnglish.Some? then Ok(list.generatedEnglish.value)
    else match FirstTranslatable(list.listed)
      case None => Err(NoUsableTranscript)
      case Some(j) => list.listed[j].translatedToEnglish
  }

  /** The "no usable transcript" error comes exactly from a listing without
      any candidate, as long as no translation fails with that same message. */
  lemma NoUsableExactly(list: TranscriptList)
    requires forall j | 0 <= j < |list.listed| :: list.listed[j].translatedToEnglish != Err(NoUsableTranscript)
    ensures ChooseTranscript(list) == Err(NoUsableTranscript) <==> !HasCandidate(list)
  {
  }

  /** Only the first translatable transcript is ever asked for a
      translation: changing what the others would give changes nothing. */
  lemma OnlyFirstTranslationAsked(list: TranscriptList, other: TranscriptList, j: nat)
    requires list.manualEnglish == other.manualEnglish
    requires list.generatedEnglish == other.generatedEnglish
    requires |list.listed| == |other.listed|
    requires forall m | 0 <= m < |list.listed| ::
               list.listed[m].translationLanguages == other.listed[m].translationLanguages
    requires j < |list.listed| && Translatable(list.listed[j])
    requires forall m | 0 <= m < j :: !Translatable(list.listed[m])
    requires list.listed[j] == other.listed[j]
    ensures ChooseTranscript(list) == ChooseTranscript(other)
  {
    FirstTranslatableIs(list.listed, j);
    FirstTranslatableIs(other.listed, j);
  }

  /** The first translatable index is the one `FirstTranslatable` finds. */
  lemma FirstTranslatableIs(listed: seq<Listed>, j: nat)
    requires j < |listed| && Translatable(listed[j])
    requires forall m | 0 <= m < j :: !Translatable(listed[m])
    ensures FirstTranslatable(listed) == Some(j)
  {
  }

  /** `get_best_transcript` of `index.py`: list the transcripts, choose one,
      fetch it and join the entry texts with newlines. Listing, translating
      and fetching are not guarded, so their exceptions come out as they are. */
  function GetBestTranscript(videoId: string, listTranscripts: string -> Result<TranscriptList>): (r: Result<string>)
    ensures listTranscripts(videoId).Err? ==> r == Err(listTranscripts(videoId).error)
    ensures listTranscripts(videoId).Ok? ==>
              var chosen := ChooseTranscript(listTranscripts(videoId).value);
              && (chosen.Err? ==> r == Err(chosen.error))
              && (chosen.Ok? && chosen.value.fetched.Err? ==> r == Err(chosen.value.fetched.error))
              && (chosen.Ok? && chosen.value.fetched.Ok? ==>
                    && r == Ok(Join(chosen.value.fetched.value, "\n"))
                    && JoinedLines(r.value, chosen.value.fetched.value))
  {
    var list :- listTranscripts(videoId);
    var transcript :- ChooseTranscript(list);
    var texts :- transcript.fetched;
    JoinLines(texts);
    Ok(Join(texts, "\n"))
  }

  /** `text` is the entry texts `texts` laid out one after another with a
      newline between each two: splitting it on newlines gives them back
      when none of them holds a newline itself. */
  predicate JoinedLines(text: string, texts: seq<string>)
  {
    && (|texts| >= 1 && (forall k | 0 <= k < |texts| :: '\n' !in texts[k]) ==> Split(text, "\n") == texts)
    && (|texts| == 0 ==> text == "")
  }

  /** Joining entry texts with newlines lays them out as `JoinedLines` says. */
  lemma JoinLines(texts: seq<string>)
    ensures JoinedLines(Join(texts, "\n"), texts)
  {
    if |texts| >= 1 && (forall k | 0 <= k < |texts| :: '\n' !in texts[k]) {
      SplitJoin(texts, "\n");
    }
  }

  /** `get_transcript` of `api/index.py`: the entry texts of the video's
      transcript joined with spaces, or, when retrieving them raises, an
      exception whose message is a fixed prefix followed by the original one. */
  function GetTranscriptApi(videoId: string, getTranscript: string -> Result<seq<string>>): (r: Result<string>)
    ensures r.Ok? <==> getTranscript(videoId).Ok?
    ensures r.Ok? ==> r.value == Join(getTranscript(videoId).value, " ")
    ensures r.Err? ==> StartsWith(r.error, RetrievalFailed)
                       && r.error[|RetrievalFailed|..] == getTranscript(videoId).error
  {
    match getTranscript(videoId)
    case Ok(texts) => Ok(Join(texts, " "))
    case Err(e) =>
      var msg := RetrievalFailed + e;
      assert msg[..|RetrievalFailed|] == RetrievalFailed;
      Err(msg)
  }

  /** The words of one-word entries are recovered from the joined text of
      `api/index.py` by splitting it on spaces. */
  lemma SpaceJoinedWords(texts: seq<string>)
    requires |texts| >= 1
    requires forall k | 0 <= k < |texts| :: ' ' !in texts[k]
    ensures Split(Join(texts, " "), " ") == texts
  {
    SplitJoin(texts, " ");
  }
}

=== FILE: video_id.dfy ===
/** How the service pulls a video id out of a YouTube URL.

    The repository holds two revisions of `extract_youtube_id`: the one in
    `index.py`, which looks for a `watch?v=` link first and cuts the id at
    `&` and `?`, and the one in `api/index.py`, which looks for a `youtu.be`
    link first and cuts the id at only one of those characters. Both are
    plain chains of `split`, so each result is described here as a prefix of
    a piece of the URL cut at the first place one of a few separators begins.
 */
module VideoId {
  import opened Results
  import opened PyStr

  /** What `index.py` looks for to recognise a watch-page link. */
  const WatchMarker := "youtube.com/watch?v="
  /** What `index.py` looks for to recognise a short link. */
  const ShortMarker := "youtu.be/"
  /** What `api/index.py` looks for to recognise a short link. */
  const ApiShortMarker := "youtu.be"
  /** What `api/index.py` looks for to recognise a watch-page link. */
  const ApiWatchMarker := "youtube.com"
  /** The query parameter holding the id. */
  const IdParam := "v="

  /** The ValueError raised by `index.py` for an unrecognised URL. */
  const InvalidUrl := "\U{274C} Invalid YouTube URL"
  /** The ValueError raised by `api/index.py` for an unrecognised URL. */
  const ApiInvalidUrl := "Invalid YouTube URL"

  /** One of `seps` begins at index `j` of `s`. */
  predicate StopsAt(s: string, j: int, seps: seq<string>)
  {
    exists sep | sep in seps :: OccursAt(s, sep, j)
  }

  /** `h` is `s` cut just before the first place where one of `seps` begins,
      or all of `s` when none does. */
  predicate CutBefore(s: string, h: string, seps: seq<string>)
  {
    && |h| <= |s| && h == s[..|h|]
    && (forall j | 0 <= j < |h| :: !StopsAt(s, j, seps))
    && (|h| == |s| || StopsAt(s, |h|, seps))
  }

  /** A text has only one cut before a given set of separators. */
  lemma CutBeforeUnique(s: string, h1: string, h2: string, seps: seq<string>)
    requires CutBefore(s, h1, seps) && CutBefore(s, h2, seps)
    ensures h1 == h2
  {
  }

  /** `s.split(sep)[0]` is `s` cut before `sep`. */
  lemma HeadCut(s: string, sep: string)
    requires |sep| > 0
    ensures CutBefore(s, SplitHead(s, sep), [sep])
  {
    var h := SplitHead(s, sep);
    forall j | 0 <= j < |h|
      ensures !StopsAt(s, j, [sep])
    {
    }
    if |h| < |s| {
      assert OccursAt(s, sep, |h|);
    }
  }

  /** Splitting a cut once more on a character and keeping the first piece
      cuts the original text before that character as well. */
  lemma HeadCutChar(s: string, h: string, seps: seq<string>, c: char)
    requires CutBefore(s, h, seps)
    ensures CutBefore(s, SplitHead(h, [c]), seps + [[c]])
  {
    var h2 := SplitHead(h, [c]);
    var seps2 := seps + [[c]];
    forall j | 0 <= j < |h2|
      ensures !StopsAt(s, j, seps2)
    {
      assert !StopsAt(s, j, seps);
      assert !OccursAt(h, [c], j);
      OccursAtChar(h, c, j);
      OccursAtChar(s, c, j);
      assert h[j] == s[j];
    }
    if |h2| == |h| {
      if |h| < |s| {
        var sep :| sep in seps && OccursAt(s, sep, |h|);
        assert sep in seps2;
      }
    } else {
      assert OccursAt(h, [c], |h2|);
      OccursAtChar(h, c, |h2|);
      OccursAtChar(s, c, |h2|);
      assert h[|h2|] == s[|h2|];
      assert [c] in seps2;
    }
  }

  /** The text after the leftmost `v=`. */
  function AfterIdParam(url: string): string
    requires Contains(url, IdParam)
  {
    FindContains(url, IdParam);
    url[Find(url, IdParam).value + |IdParam|..]
  }

  /** The id of a watch-page link in `index.py`:
      `url.split("v=")[1].split("&")[0].split("?")[0]`. */
  function WatchId(url: string): (id: string)
    requires Contains(url, IdParam)
    ensures CutBefore(AfterIdParam(url), id, [IdParam, "&", "?"])
  {
    FindContains(url, IdParam);
    var after := SplitSecond(url, IdParam).value;
    var rest := AfterIdParam(url);
    var first := SplitHead(after, "&");
    HeadCut(rest, IdParam);
    HeadCutChar(rest, after, [IdParam], '&');
    assert [IdParam] + [['&']] == [IdParam, "&"];
    HeadCutChar(rest, first, [IdParam, "&"], '?');
    assert [IdParam, "&"] + [['?']] == [IdParam, "&", "?"];
    SplitHead(first, "?")
  }

  /** The id of a short link in `index.py`:
      `url.split("/")[-1].split("?")[0].split("&")[0]`. */
  function ShortId(url: string): (id: string)
    ensures CutBefore(SplitTail(url, "/"), id, ["?", "&"])
  {
    var last := SplitTail(url, "/");
    var first := SplitHead(last, "?");
    HeadCut(last, "?");
    HeadCutChar(last, first, ["?"], '&');
    assert ["?"] + [['&']] == ["?", "&"];
    SplitHead(first, "&")
  }

  /** A watch-page link contains the `v=` its id follows. */
  lemma WatchHasIdParam(url: string)
    requires Contains(url, WatchMarker)
    ensures Contains(url, IdParam)
  {
    assert WatchMarker == "youtube.com/watch?" + IdParam;
    ContainsEnd(url, "youtube.com/watch?", IdParam);
  }

  /** `extract_youtube_id` of `index.py`. A watch-page link gives the text
      after the first `v=`, cut before the next `v=`, `&` or `?`; failing
      that, a short link gives the text after the last `/`, cut before `?`
      or `&`; any other URL raises ValueError. */
  function ExtractVideoId(url: string): (r: Result<string>)
    ensures r.Ok? <==> Contains(url, WatchMarker) || Contains(url, ShortMarker)
    ensures Contains(url, WatchMarker) ==>
              Contains(url, IdParam) && CutBefore(AfterIdParam(url), r.value, [IdParam, "&", "?"])
    ensures !Contains(url, WatchMarker) && Contains(url, ShortMarker) ==>
              CutBefore(SplitTail(url, "/"), r.value, ["?", "&"])
    ensures r.Err? ==> r.error == InvalidUrl
  {
    if Contains(url, WatchMarker) then
      WatchHasIdParam(url);
      Ok(WatchId(url))
    else if Contains(url, ShortMarker) then
      Ok(ShortId(url))
    else
      Err(InvalidUrl)
  }

  /** The id of a short link in `api/index.py`: `url.split("/")[-1].split("?")[0]`. */
  function ApiShortId(url: string): (id: string)
    ensures CutBefore(SplitTail(url, "/"), id, ["?"])
  {
    var last := SplitTail(url, "/");
    HeadCut(last, "?");
    SplitHead(last, "?")
  }

  /** The id of a watch-page link in `api/index.py`:
      `url.split("v=")[1].split("&")[0]`, given that `v=` occurs. */
  function ApiWatchId(url: string): (id: string)
    requires Contains(url, IdParam)
    ensures CutBefore(AfterIdParam(url), id, [IdParam, "&"])
  {
    FindContains(url, IdParam);
    var after := SplitSecond(url, IdParam).value;
    var rest := AfterIdParam(url);
    HeadCut(rest, IdParam);
    HeadCutChar(rest, after, [IdParam], '&');
    assert [IdParam] + [['&']] == [IdParam, "&"];
    SplitHead(after, "&")
  }

  /** `extract_youtube_id` of `api/index.py`. Any URL mentioning `youtu.be`
      gives the text after the last `/`, cut before `?`; failing that, one
      mentioning `youtube.com` gives the text after the first `v=`, cut
      before the next `v=` or `&`, and raises IndexError when there is no
      `v=`; any other URL raises ValueError. */
  function ExtractVideoIdApi(url: string): (r: Result<string>)
    ensures r.Ok? <==> Contains(url, ApiShortMarker)
                       || (Contains(url, ApiWatchMarker) && Contains(url, IdParam))
    ensures Contains(url, ApiShortMarker) ==>
              CutBefore(SplitTail(url, "/"), r.value, ["?"])
    ensures !Contains(url, ApiShortMarker) && Contains(url, ApiWatchMarker) && Contains(url, IdParam) ==>
              CutBefore(AfterIdParam(url), r.value, [IdParam, "&"])
    ensures !Contains(url, ApiShortMarker) && Contains(url, ApiWatchMarker) && !Contains(url, IdParam) ==>
              r == Err(IndexOutOfRange)
    ensures !Contains(url, ApiShortMarker) && !Contains(url, ApiWatchMarker) ==>
              r == Err(ApiInvalidUrl)
  {
    if Contains(url, ApiShortMarker) then
      Ok(ApiShortId(url))
    else if Contains(url, ApiWatchMarker) then
      var second := SplitSecond(url, IdParam);
      if second.Err? then Err(second.error) else Ok(ApiWatchId(url))
    else
      Err(ApiInvalidUrl)
  }

  /** A character YouTube uses in video ids. */
  predicate IdChar(c: char)
  {
    ('a' <= c <= 'z') || ('A' <= c <= 'Z') || ('0' <= c <= '9') || c == '-' || c == '_'
  }

  /** `id` is made of the characters YouTube uses in video ids. */
  predicate IdShape(id: string)
  {
    forall k | 0 <= k < |id| :: IdChar(id[k])
  }

  /** An id followed by nothing, or by one of the separators, is what cutting
      before those separators keeps. */
  lemma IdCut(id: string, tail: string, seps: seq<string>)
    requires IdShape(id)
    requires forall sep | sep in seps :: sep == IdParam || sep == "&" || sep == "?"
    requires |tail| == 0 || [tail[0]] in seps
    ensures CutBefore(id + tail, id, seps)
  {
    var s := id + tail;
    forall j | 0 <= j < |id|
      ensures !StopsAt(s, j, seps)
    {
      if StopsAt(s, j, seps) {
        var sep :| sep in seps && OccursAt(s, sep, j);
        if sep == IdParam {
          OccursAtIndex(s, sep, j, 1);
        } else {
          OccursAtIndex(s, sep, j, 0);
        }
      }
    }
    if |tail| > 0 {
      OccursAtChar(s, tail[0], |id|);
      assert OccursAt(s, [tail[0]], |id|);
    }
    assert s[..|id|] == id;
  }

  /** In a watch-page link whose prefix holds no `=`, both markers occur
      and the text after the first `v=` is everything after the marker. */
  lemma WatchLinkParts(pre: string, rest: string)
    requires '=' !in pre
    ensures Contains(pre + WatchMarker + rest, WatchMarker)
    ensures Contains(pre + WatchMarker + rest, ApiWatchMarker)
    ensures Contains(pre + WatchMarker + rest, IdParam)
    ensures AfterIdParam(pre + WatchMarker + rest) == rest
  {
    var url := pre + WatchMarker + rest;
    var a := pre + "youtube.com/watch";
    assert url == a + ['?'] + IdParam + rest;
    assert OccursAt(url, WatchMarker, |pre|) by {
      assert url[|pre|..|pre| + |WatchMarker|] == WatchMarker;
    }
    assert OccursAt(url, ApiWatchMarker, |pre|) by {
      assert url[|pre|..|pre| + |ApiWatchMarker|] == ApiWatchMarker;
    }
    MissingChar(a, IdParam, 1);
    FindAfter(a, '?', IdParam, rest);
    FindContains(url, IdParam);
  }

  /** A watch-page link made of a prefix without `=`, the marker, an id and
      nothing or a further parameter gives back that id in `index.py`. */
  lemma WatchLinkRoundTrip(pre: string, id: string, tail: string)
    requires '=' !in pre
    requires IdShape(id)
    requires |tail| == 0 || tail[0] == '&' || tail[0] == '?'
    ensures ExtractVideoId(pre + WatchMarker + id + tail) == Ok(id)
  {
    var url := pre + WatchMarker + id + tail;
    WatchLinkParts(pre, id + tail);
    assert url == pre + WatchMarker + (id + tail);
    IdCut(id, tail, [IdParam, "&", "?"]);
    CutBeforeUnique(id + tail, id, ExtractVideoId(url).value, [IdParam, "&", "?"]);
  }

  /** A short link followed by an id and nothing or a query without `/`
      gives back that id in `index.py`, unless the URL is also a watch-page
      link. */
  lemma ShortLinkRoundTrip(pre: string, id: string, tail: string)
    requires IdShape(id)
    requires '/' !in tail
    requires |tail| == 0 || tail[0] == '&' || tail[0] == '?'
    requires !Contains(pre + ShortMarker + id + tail, WatchMarker)
    ensures ExtractVideoId(pre + ShortMarker + id + tail) == Ok(id)
  {
    var url := pre + ShortMarker + id + tail;
    assert url == pre + "youtu.be" + ['/'] + (id + tail);
    assert OccursAt(url, ShortMarker, |pre|) by {
      assert url[|pre|..|pre| + |ShortMarker|] == ShortMarker;
    }
    assert '/' !in id + tail by {
      assert forall k | 0 <= k < |id| :: IdChar(id[k]);
    }
    SplitTailAfter(pre + "youtu.be", '/', id + tail);
    IdCut(id, tail, ["?", "&"]);
    CutBeforeUnique(id + tail, id, ExtractVideoId(url).value, ["?", "&"]);
  }

  /** A short link followed by an id and nothing or a query without `/`
      gives back that id in `api/index.py`. */
  lemma ApiShortLinkRoundTrip(pre: string, id: string, tail: string)
    requires IdShape(id)
    requires '/' !in tail
    requires |tail| == 0 || tail[0] == '?'
    ensures ExtractVideoIdApi(pre + ShortMarker + id + tail) == Ok(id)
  {
    var url := pre + ShortMarker + id + tail;
    assert url == pre + "youtu.be" + ['/'] + (id + tail);
    assert OccursAt(url, ApiShortMarker, |pre|) by {
      assert url[|pre|..|pre| + |ApiShortMarker|] == ApiShortMarker;
    }
    assert '/' !in id + tail by {
      assert forall k | 0 <= k < |id| :: IdChar(id[k]);
    }
    SplitTailAfter(pre + "youtu.be", '/', id + tail);
    IdCut(id, tail, ["?"]);
    CutBeforeUnique(id + tail, id, ExtractVideoIdApi(url).value, ["?"]);
  }

  /** In `api/index.py` a short link keeps everything after the id that is
      not a `?` query: `&` parameters stay part of the id. */
  lemma ApiShortLinkKeepsRest(pre: string, id: string, tail: string)
    requires IdShape(id)
    requires '/' !in tail && '?' !in tail
    ensures ExtractVideoIdApi(pre + ShortMarker + id + tail) == Ok(id + tail)
  {
    var url := pre + ShortMarker + id + tail;
    var s := id + tail;
    assert url == pre + "youtu.be" + ['/'] + s;
    assert OccursAt(url, ApiShortMarker, |pre|) by {
      assert url[|pre|..|pre| + |ApiShortMarker|] == ApiShortMarker;
    }
    assert '/' !in s && '?' !in s by {
      assert forall k | 0 <= k < |id| :: IdChar(id[k]);
    }
    SplitTailAfter(pre + "youtu.be", '/', s);
    forall j | 0 <= j < |s|
      ensures !StopsAt(s, j, ["?"])
    {
      OccursAtChar(s, '?', j);
    }
    assert s[..|s|] == s;
    CutBeforeUnique(s, s, ExtractVideoIdApi(url).value, ["?"]);
  }

  /** A watch-page link made of a prefix without `=`, the marker, an id and
      nothing or a further `&` parameter gives back that id in
      `api/index.py`, unless the URL also mentions `youtu.be`. */
  lemma ApiWatchLinkRoundTrip(pre: string, id: string, tail: string)
    requires '=' !in pre
    requires IdShape(id)
    requires |tail| == 0 || tail[0] == '&'
    requires !Contains(pre + WatchMarker + id + tail, ApiShortMarker)
    ensures ExtractVideoIdApi(pre + WatchMarker + id + tail) == Ok(id)
  {
    var url := pre + WatchMarker + id + tail;
    WatchLinkParts(pre, id + tail);
    assert url == pre + WatchMarker + (id + tail);
    IdCut(id, tail, [IdParam, "&"]);
    CutBeforeUnique(id + tail, id, ExtractVideoIdApi(url).value, [IdParam, "&"]);
  }

  /** The two revisions disagree on a short link carrying an `&` parameter:
      `index.py` cuts it off, `api/index.py` keeps it in the id. */
  lemma RevisionsDifferOnShortLink(pre: string, id: string, rest: string)
    requires IdShape(id)
    requires '/' !in rest && '?' !in rest
    requires !Contains(pre + ShortMarker + id + ("&" + rest), WatchMarker)
    ensures ExtractVideoId(pre + ShortMarker + id + ("&" + rest)) == Ok(id)
    ensures ExtractVideoIdApi(pre + ShortMarker + id + ("&" + rest)) == Ok(id + "&" + rest)
  {
    ShortLinkRoundTrip(pre, id, "&" + rest);
    ApiShortLinkKeepsRest(pre, id, "&" + rest);
    assert id + ("&" + rest) == id + "&" + rest;
  }

  /** Regrouping a concatenation in which a marker is split into four parts. */
  lemma Regroup(p: string, m1: string, m2: string, m3: string, m4: string, x: string, y: string)
    ensures p + (m1 + m2 + m3 + m4) + x + y == (p + m1) + m2 + m3 + (m4 + x + y)
  {
  }

  /** A URL mentioning `youtu.be` whose last path segment is `seg`, followed
      by nothing or a `?` query, gives `seg` in `api/index.py`. */
  lemma ApiLastSegment(a: string, seg: string, query: string)
    requires IdShape(seg)
    requires '/' !in query
    requires |query| == 0 || query[0] == '?'
    requires Contains(a + ['/'] + seg + query, ApiShortMarker)
    ensures ExtractVideoIdApi(a + ['/'] + seg + query) == Ok(seg)
  {
    var url := a + ['/'] + seg + query;
    assert url == a + ['/'] + (seg + query);
    assert '/' !in seg + query by {
      assert forall k | 0 <= k < |seg| :: IdChar(seg[k]);
    }
    SplitTailAfter(a, '/', seg + query);
    IdCut(seg, query, ["?"]);
    CutBeforeUnique(seg + query, seg, ExtractVideoIdApi(url).value, ["?"]);
  }

  /** The watch-page marker is a host, a `/`, the `watch` path and the start
      of the query. */
  lemma WatchMarkerParts()
    ensures WatchMarker == "youtube.com" + ['/'] + "watch" + "?v="
  {
  }

  /** `api/index.py` reads a watch-page link that mentions `youtu.be` after
      the id as a short link whose last segment is `watch?v=...`. */
  lemma SharedWatchLinkApi(pre: string, id: string, tail: string)
    requires IdShape(id)
    requires '/' !in tail && Contains(tail, ApiShortMarker)
    ensures ExtractVideoIdApi(pre + WatchMarker + id + tail) == Ok("watch")
  {
    var query := "?v=" + id + tail;
    WatchMarkerParts();
    Regroup(pre, "youtube.com", ['/'], "watch", "?v=", id, tail);
    ContainsAppended(pre + WatchMarker + id, tail, ApiShortMarker);
    assert '/' !in query by {
      assert forall k | 0 <= k < |id| :: IdChar(id[k]);
    }
    assert IdShape("watch");
    ApiLastSegment(pre + "youtube.com", "watch", query);
  }

  /** A watch-page link that mentions `youtu.be` in a later parameter, as
      links shared from the YouTube player do, is read as a short link by
      `api/index.py`, which then answers with the path segment `watch`;
      `index.py` still finds the id. */
  lemma SharedWatchLink(pre: string, id: string, rest: string)
    requires '=' !in pre
    requires IdShape(id)
    requires '/' !in rest && Contains(rest, ApiShortMarker)
    ensures ExtractVideoId(pre + WatchMarker + id + ("&" + rest)) == Ok(id)
    ensures ExtractVideoIdApi(pre + WatchMarker + id + ("&" + rest)) == Ok("watch")
  {
    WatchLinkRoundTrip(pre, id, "&" + rest);
    ContainsAppended("&", rest, ApiShortMarker);
    SharedWatchLinkApi(pre, id, "&" + rest);
  }

  /** A cut holds none of the single characters it was cut before. */
  lemma CutExcludes(s: string, h: string, seps: seq<string>, c: char)
    requires CutBefore(s, h, seps) && [c] in seps
    ensures c !in h
  {
    forall k | 0 <= k < |h|
      ensures h[k] != c
    {
      assert !StopsAt(s, k, seps);
      assert !OccursAt(s, [c], k);
      OccursAtChar(s, c, k);
      assert s[k] == h[k];
    }
  }

  /** A cut of a slice of `url` occurs in `url`. */
  lemma CutOccurs(url: string, k: nat, h: string, seps: seq<string>)
    requires k <= |url|
    requires CutBefore(url[k..], h, seps)
    ensures Contains(url, h)
  {
    assert url[k..][0..|h|] == h;
    assert OccursAt(url[k..], h, 0);
    assert url[k..] == url[k..|url|];
    ContainsInSlice(url, h, k, |url|);
  }

  /** What `index.py` extracts is a piece of the URL without `&` or `?`, and
      from a short link also without `/`. */
  lemma ExtractedIdParts(url: string)
    requires ExtractVideoId(url).Ok?
    ensures var id := ExtractVideoId(url).value;
            && Contains(url, id)
            && '&' !in id && '?' !in id
            && (!Contains(url, WatchMarker) ==> '/' !in id)
  {
    var id := ExtractVideoId(url).value;
    if Contains(url, WatchMarker) {
      var seps := [IdParam, "&", "?"];
      FindContains(url, IdParam);
      CutOccurs(url, Find(url, IdParam).value + |IdParam|, id, seps);
      CutExcludes(AfterIdParam(url), id, seps, '&');
      CutExcludes(AfterIdParam(url), id, seps, '?');
    } else {
      var seps := ["?", "&"];
      var t := SplitTail(url, "/");
      CutOccurs(url, |url| - |t|, id, seps);
      CutExcludes(t, id, seps, '&');
      CutExcludes(t, id, seps, '?');
      if '/' in id {
        var k :| 0 <= k < |id| && id[k] == '/';
        assert t[k] == '/';
        ContainsChar(t, '/');
      }
    }
  }

  /** What `api/index.py` extracts is a piece of the URL; from a short link
      it holds no `/` or `?`, from a watch-page link no `&`. */
  lemma ApiExtractedIdParts(url: string)
    requires ExtractVideoIdApi(url).Ok?
    ensures var id := ExtractVideoIdApi(url).value;
            && Contains(url, id)
            && (Contains(url, ApiShortMarker) ==> '/' !in id && '?' !in id)
            && (!Contains(url, ApiShortMarker) ==> '&' !in id)
  {
    var id := ExtractVideoIdApi(url).value;
    if Contains(url, ApiShortMarker) {
      var t := SplitTail(url, "/");
      CutOccurs(url, |url| - |t|, id, ["?"]);
      CutExcludes(t, id, ["?"], '?');
      if '/' in id {
        var k :| 0 <= k < |id| && id[k] == '/';
        assert t[k] == '/';
        ContainsChar(t, '/');
      }
    } else {
      var seps := [IdParam, "&"];
      FindContains(url, IdParam);
      CutOccurs(url, Find(url, IdParam).value + |IdParam|, id, seps);
      CutExcludes(AfterIdParam(url), id, seps, '&');
    }
  }

  /** `index.py` does not check that the id is non-empty: a watch-page link
      whose `v=` is directly followed by another parameter gives `""`. */
  lemma EmptyIdAccepted(pre: string, tail: string)
    requires '=' !in pre
    requires |tail| > 0 && tail[0] == '&'
    ensures ExtractVideoId(pre + WatchMarker + tail) == Ok("")
  {
    assert pre + WatchMarker + "" + tail == pre + WatchMarker + tail;
    WatchLinkRoundTrip(pre, "", tail);
  }

  /** In `api/index.py` a watch-page link keeps a `?` query that follows the
      id, since that branch cuts only before `&`. */
  lemma ApiWatchLinkKeepsQuery(pre: string, id: string, tail: string)
    requires '=' !in pre
    requires IdShape(id)
    requires |tail| > 0 && tail[0] == '?'
    requires '&' !in tail && !Contains(tail, IdParam)
    requires !Contains(pre + WatchMarker + id + tail, ApiShortMarker)
    ensures ExtractVideoIdApi(pre + WatchMarker + id + tail) == Ok(id + tail)
  {
    var url := pre + WatchMarker + id + tail;
    var a := pre + "youtube.com/watch";
    var s := id + tail;
    var seps := [IdParam, "&"];
    assert url == a + ['?'] + IdParam + s;
    assert OccursAt(url, ApiWatchMarker, |pre|) by {
      assert url[|pre|..|pre| + |ApiWatchMarker|] == ApiWatchMarker;
    }
    MissingChar(a, IdParam, 1);
    FindAfter(a, '?', IdParam, s);
    FindContains(url, IdParam);
    assert AfterIdParam(url) == s;
    forall j | 0 <= j < |s|
      ensures !StopsAt(s, j, seps)
    {
      NoStopInIdQuery(id, tail, j);
    }
    assert s[..|s|] == s;
    CutBeforeUnique(s, s, ExtractVideoIdApi(url).value, seps);
  }

  /** Neither `v=` nor `&` begins inside an id followed by a `?` query that
      holds neither. */
  lemma NoStopInIdQuery(id: string, tail: string, j: nat)
    requires IdShape(id)
    requires |tail| > 0 && tail[0] == '?'
    requires '&' !in tail && !Contains(tail, IdParam)
    requires j < |id + tail|
    ensures !StopsAt(id + tail, j, [IdParam, "&"])
  {
    var s := id + tail;
    assert s[j] != '&' by {
      if j < |id| {
        assert s[j] == id[j];
      } else {
        assert s[j] == tail[j - |id|];
      }
    }
    OccursAtChar(s, '&', j);
    if j + 2 <= |s| {
      if j >= |id| {
        assert s[j..j + 2] == tail[j - |id|..j - |id| + 2];
        assert !OccursAt(tail, IdParam, j - |id|);
      } else {
        assert s[j + 1] != '=' by {
          if j + 1 < |id| {
            assert s[j + 1] == id[j + 1];
          } else {
            assert s[j + 1] == tail[0];
          }
        }
        assert s[j..j + 2][1] == s[j + 1];
      }
    }
    assert !OccursAt(s, IdParam, j);
  }
}
